=== FILE: README.md ===
# picture_this image library, modelled in Dafny

picture_this is a small image-board web application. This project models its
library core:
- the three record kinds (users, boards, images), the board-sharing relation and the `repr` text of each record;
- the two extension checkers;
- the image upload pipeline: id allocation, URL or file source, saving the original, WebP recompression, the thumbnail path, recording the image, and the first-image board thumbnail;
- board creation and lookup by name;
- deletion of an image and of a board together with its images.

The database, the upload directory and the outside world are explicit values:
- a `State` holds the image rows (a map keyed by id), the board rows (a sequence in insertion order, so `.first()` is the first match), the sharing grants (a set, since the pair is the table's key), and the set of file paths present;
- an `Io` value supplies what the program learns from outside: the sanitiser, the HTTP reply, whether the write or save succeeds, and the two file sizes;
- a Python exception becomes `Raised(..)`, carrying the state as it stood when the exception was raised; Python's `False` from `upload_image` is `Returned(None)`.

Modules:
- `Results`: `Option` and `Outcome`.
- `PyStr`: ASCII lowering, `str(int)` and digit parsing.
- `PyPath`: `os.path.basename`/`splitext`/`join`/`split`, `pathlib` name and stem, and the path part of `urlparse`, including the cleaning `urlsplit` applies first and the `;params` split of the last segment.
- `Naming`: the file names the library derives from an image id.
- `Checkers`: the two extension checkers.
- `Entities`: records and `repr`.
- `Library`: the operations.
- `LibraryProofs`: the invariant and the properties of the operations.

The invariant `LibraryProofs.Valid` says three things. Every row is keyed by its own id. Every row's extension has the form `splitext` gives: empty, or a dot followed by neither dots nor slashes. The upload directory holds exactly `{dir}/{id}{ext}` and `{dir}/thumbnails/{id}.webp` for each row.

The model follows the code, also where the code does something other than what the library's own tests expect (tests.py:544-576 and 622-623) or what its function names suggest:
- A URL that passes the checker but names a missing file is not refused with `False`: `urlopen` raises `HTTPError` for every final status outside 2xx, so the `response.status == 200` test only ever sees a 2xx status. The library's test at tests.py:551-556 expects `False` for a 404 URL; the model raises (`LibraryProofs.NotFoundUploadRaises`).
- An uploaded file's extension is never checked, because `uploaded_file_checker` is not called. See `LibraryProofs.FileUploadUnchecked` and `LibraryProofs.InvalidFileStillRecorded`. The library's own file test only returns `False` because its fake file's save raises.
- `create_board` does not refuse a duplicate name. The name lookups return the first board, so a duplicate is shadowed (`LibraryProofs.DuplicateBoardShadowed`).
- `delete_image` does not clear a board thumbnail that names the deleted file.
- `delete_board` does not catch the `FileNotFoundError` of a missing file. The model raises with whatever was removed before the missing file.
- Image ids are allocated as one more than the largest live id. An id is therefore reused once the image with the largest id is deleted (`LibraryProofs.IdReuse`).
- `board_thumbnail_set` assigns `thumbnail_id`, which the Board mapping does not declare. It therefore stores nothing and returns `None` (falsy), and it raises when the board is missing (helpers.py:174-184). The library's test at tests.py:622-623 expects it to return `True`.
- The board-thumbnail test in `upload_image` counts the images filed under the board after the insert and compares the count with 1. This equals "the board had no image before" (`Library.CountAfterInsert`). The image is already recorded, and its two files are on disk, when a board key naming no board makes `board.thumbnail` raise on `None`. That is the only case in which this step raises.

## Model

| member | source | states |
|---|---|---|
| PyStr.ParseDecimal | helpers.py:66 | reading back `str(n)` gives `n` |
| PyStr.DecimalInjective | helpers.py:66 | distinct ids have distinct decimal texts |
| PyStr.Decimal | helpers.py:66 | `str(n)` is a non-empty run of digits with no leading zero for positive `n` |
| PyStr.TakeDigitsPrefix | helpers.py:66 | the digits leading `d + rest` are exactly `d`, for a digit string `d` and a `rest` not starting with a digit |
| PyPath.Basename | helpers.py:144 | the result is a suffix of the path with no slash, and it follows the last slash (or is the whole path when there is none) |
| PyPath.Splitext | helpers.py:145 | the two parts concatenate back to the path, and the extension is empty or a dot followed by neither dots nor slashes |
| PyPath.BasenameUnderDirectory | helpers.py:154 | the base name of `dir/name` is the base name of `name` |
| PyPath.UrlPath | helpers.py:144 | the path `urlparse` reports never holds `?`, `#`, a tab, a carriage return or a line feed |
| PyPath.SplitParamsCut | helpers.py:144 | `_splitparams` keeps a prefix of the path that runs past its last slash, holds no `;` after that slash, and ends at a `;` when it is shorter than the path |
| PyPath.SplitParamsOfSegment | helpers.py:144 | the params of `dir/name;params` are cut off, leaving `dir/name`, when `name` has no slash or `;` and `params` has no slash |
| PyPath.UrlPathDropsParams | helpers.py:144 | for `scheme://host/name;params` with a scheme of `uses_params`, followed by an optional query or fragment, the path `urlparse` reports is `/name` |
| PyPath.UrlPathAfterHostPlain | helpers.py:144 | for `scheme://host/path` with no `;` in the path, followed by an optional query or fragment, the path `urlparse` reports is `/path`, whatever the scheme |
| PyPath.UrlPathIgnoresSuffix | helpers.py:79 | appending a query or fragment to a URL without `?` or `#` does not change the path `urlparse` reports |
| PyPath.UrlPathAfterHost | helpers.py:79 | for `scheme://host/path` followed by an optional query or fragment, where the host has no bracket and neither part holds a character `urlsplit` deletes, the path `urlparse` reports is `/path`, less the `;params` of its last segment when the scheme is one of `uses_params` |
| PyPath.UrlPathOfLocator | helpers.py:79 | a URL that does not start with a control or space and holds no tab or line break before its query or fragment has the path of the text before the first `?` or `#`, params split included |
| PyPath.LowerKeepsExtShape | helpers.py:81 | lowering keeps the shape of an extension |
| PyPath.ExtOfName | helpers.py:145 | in a slash-free name whose last dot is preceded by something other than dots, the extension starts at that dot |
| PyPath.DotNameHasNoExt | helpers.py:155-157 | a dot followed by a word with no dot or slash is its own base name and has an empty extension |
| Naming.StoredNameShape | helpers.py:91 | `{id}{ext}` has no slash and its last dot begins the extension |
| Naming.HeadOfStored | helpers.py:164 | `os.path.split` of `{dir}/{id}{ext}` gives back `dir` |
| Naming.JoinIsStoredPath | helpers.py:91-103 | the file branch's `os.path.join(dir, "{id}{ext}")` is the URL branch's `{dir}/{id}{ext}` |
| Naming.ThumbnailOutputPath | helpers.py:162-167 | where `thumbnail_generator` writes; `Naming.ThumbnailOutputOfStored` shows that for a stored original this is the thumbnail the record names |
| Naming.WebpCandidatePath | helpers.py:195 | where `webp_if_larger` writes the WebP copy; `Naming.WebpCandidateBeside` and `Naming.WebpCandidateOfStored` give its meaning |
| Naming.WebpCandidateBeside | helpers.py:195 | the WebP copy of any image is a `.webp` file in the image's own directory: `os.path.split` gives it the same head |
| Naming.WebpCandidateOfStored | helpers.py:195 | the re-encoded copy of `{dir}/{id}{ext}` is `{dir}/{id}.webp` |
| Naming.PathNameOfStored | helpers.py:165 | `Path` sees `{id}{ext}` as the last component of the stored path |
| Naming.StemOfStoredName | helpers.py:165 | the stem of `{id}{ext}` is the id, unless the extension is a bare dot |
| Naming.ThumbnailOutputOfStored | helpers.py:162-167 | the thumbnail of `{dir}/{id}{ext}` is written to `{dir}/thumbnails/{id}.webp`, the path the record names |
| Naming.ThumbnailOutputOfBareDot | helpers.py:165-167 | with a bare-dot extension the thumbnail lands at `{id}..webp`, away from the recorded path |
| Naming.StoredPathInjective | helpers.py:91 | a stored path determines its id and extension |
| Naming.ThumbnailPathInjective | helpers.py:248 | a thumbnail path determines its id |
| Naming.StoredIsNotThumbnail | helpers.py:247-248 | no original's path is a thumbnail's path |
| Naming.CandidatesDiffer | helpers.py:194-209 | the original and its WebP candidate are different files unless the extension is `.webp` |
| Checkers.UploadUrlChecker | helpers.py:142-149 | the URL checker accepts exactly when the base name of the URL's path ends, ignoring case, in one of the five allowed extensions after a stem that is not only dots |
| Checkers.UploadedFileChecker | helpers.py:152-159 | the file checker accepts exactly when the base name ends, ignoring case, in one of the five allowed extensions after a stem that is not only dots |
| Checkers.CheckersAgree | helpers.py:142-159 | the URL checker's verdict on a URL is the file checker's verdict on that URL's path |
| Checkers.AllowedAreExtensions | helpers.py:143 | each allowed extension is lower-case, a dot followed by at least one character, with no further dot or slash |
| Checkers.AllowedExtIsSuffix | helpers.py:155-157 | a slash-free name whose lowered extension is allowed ends, ignoring case, in that extension after a stem that is not only dots |
| Checkers.SuffixIsAllowedExt | helpers.py:155-157 | a slash-free name ending, ignoring case, in an allowed extension after a stem that is not only dots has that extension, lowered, as its `splitext` extension |
| Checkers.ExtAllowedIff | helpers.py:155-157 | for a slash-free name, the lowered `splitext` extension is allowed iff the name ends, ignoring case, in an allowed extension after a stem that is not only dots |
| Checkers.InvalidImageName | tests.py:544-549 | `invalid.image` has no slash and does not end in an allowed extension |
| Checkers.TestUrlPath | tests.py:544-556 | the paths `urlparse` reports for `https://pt.test/invalid.image` and `https://upload.wikimedia.org/Manul1a.jpg` are `/invalid.image` and `/Manul1a.jpg` |
| Checkers.InvalidTypeUrlRejected | tests.py:544-549 | the URL checker refuses `https://pt.test/invalid.image` |
| Checkers.NotFoundName | tests.py:551-556 | `Manul1a.jpg` has no slash and its lowered extension is `.jpg` |
| Checkers.UrlAcceptedByExt | helpers.py:142-149 | a URL whose path's last component has an allowed lowered extension is accepted |
| Checkers.NotFoundUrlAccepted | tests.py:551-556 | the URL checker accepts `https://upload.wikimedia.org/Manul1a.jpg` |
| Checkers.ParamsHideExtension | helpers.py:142-149 | the path of `https://h/a;b.png` is `/a`, so the URL checker refuses it |
| Checkers.ParamsAfterExtension | helpers.py:142-149 | the path of `https://h/a.png;x` is `/a.png`, so the URL checker accepts it |
| Checkers.InvalidFileRejected | tests.py:558-576 | the file checker refuses `invalid.file` |
| Checkers.LeadingDotRejected | helpers.py:155-157 | a dot-file such as `.png` has no extension and is refused |
| Entities.ImageReprRoundTrip | model.py:88-91 | an image's `repr` gives back its id and URL |
| Entities.BoardReprRoundTrip | model.py:64-67 | a board's `repr` gives back its id and name |
| Entities.UserReprRoundTrip | model.py:29-32 | a user's `repr` gives back its id and the username-and-email text |
| Entities.ImageReprDetermines | model.py:88-91 | images with equal `repr` have equal id and URL |
| Entities.BoardReprDetermines | model.py:64-67 | boards with equal `repr` have equal id and name |
| Library.NextImageId | helpers.py:62-66 | the new id is at least 1, above every live id, and either 1 or one more than a live id |
| Library.NextBoardId | model.py:49 | the new board key is at least 1, above every existing key, and either 1 or one more than an existing key |
| Library.FirstMatch | helpers.py:234 | the result is the index of the first board satisfying the filter, or none when no board does |
| Library.FindBoard | helpers.py:234 | the result is the first board with that name and owner, and there is none exactly when no board has both |
| Library.BoardImageIds | helpers.py:237 | the result is exactly the ids of the rows filed under the given board key |
| Library.WebpIfLarger | helpers.py:187-209 | returns true iff the WebP size is strictly smaller; then the candidate is kept and the original removed, otherwise the candidate is removed; no other file changes |
| Library.ThumbnailGenerator | helpers.py:162-171 | the thumbnail file is present afterwards, and no other file is added or removed |
| Library.UploadExtension | helpers.py:79-100 | the lowered extension of the sanitised name is empty or a dot followed by neither dots nor slashes |
| Library.Recompress | helpers.py:110-115 | `.gif` and `.webp` are kept with the files untouched; any other extension becomes `.webp` iff the WebP copy is strictly smaller |
| Library.Store | helpers.py:110-131 | the recorded image has the given id, `thumbnails/{id}.webp`, the given URL and fields and the extension the recompression rule decides; only image rows and files change |
| Library.ThumbnailBoard | helpers.py:133-137 | the outcome is the image or the `None`-attribute error, and it is the error exactly when the board key has one image and names no board; the error leaves the state as it was; rows, grants and files are untouched and the board count is kept |
| Library.CountAfterInsert | helpers.py:133-134 | right after the insert, the board's count is 1 iff no earlier row was filed under it |
| Library.Commit | helpers.py:110-139 | the outcome is an image or the `None`-attribute error; either way the image is recorded under the next id with the source's URL and the recompression rule's extension, and a returned image is that record; the error happens exactly when no row was filed under the board key before and the key names no board |
| Library.Fetch | helpers.py:83-95 | a failed request, a final status outside 2xx and a failed write all raise with nothing changed; a 2xx status other than 200 returns `False` with nothing changed; a 200 reply written successfully carries on with the recording step |
| Library.Unsaved | helpers.py:69-108 | when the original never reaches the disk, nothing changes and the upload returns `False` (refused URL, failed save, 2xx other than 200) or raises (failed request, error status, failed write) |
| Library.UploadImage | helpers.py:60-139 | a refused URL or a failed file save returns `False` with nothing changed; for an accepted URL a failed request, an error status or a failed write raises with nothing changed and a 2xx status other than 200 returns `False` with nothing changed; an accepted URL with a 200 reply and a successful write, or a file whose save succeeds, records an image or raises the `None`-attribute error; in both of those cases the image is recorded under the next id with the source's URL and the recompression rule's extension, and the `None`-attribute error happens exactly when no row was filed under the board key before and the key names no board |
| Library.CreateBoard | helpers.py:218-228 | the new board carries the given fields, no thumbnail and a key no other board has; it is appended and nothing else changes |
| Library.BoardImagesForUser | helpers.py:231-240 | the listing is a sub-map of the rows; it holds exactly the rows filed under the first board with that name and owner, and is empty when the user has no board of that name |
| Library.BoardThumbnailSet | helpers.py:174-184 | nothing changes, and it raises iff no board has that key |
| Library.DeleteImage | helpers.py:243-253 | returns `False` iff the user did not upload the image, and then changes nothing; on success exactly the row and its two files are gone; a missing original raises `FileNotFoundError` for it with nothing changed, and a missing thumbnail raises for the thumbnail with only the original removed |
| Library.Cascade | helpers.py:260-262 | the loop leaves boards and grants untouched |
| Library.RemoveAt | helpers.py:263 | removes exactly the board at the index, keeping the others in order |
| Library.Unfile | model.py:82-86 | after a board is deleted no row is filed under it, the same rows remain, and only their board field changes |
| Library.DeleteBoard | helpers.py:256-259 | returns `False` iff the user has no board of that name, and then changes nothing |
| LibraryProofs.FreshIdHasNoFiles | helpers.py:91 | in a valid library an unused id names neither an original nor a thumbnail |
| LibraryProofs.ImageFilesRemove | helpers.py:247-249 | dropping a row drops exactly its two files |
| LibraryProofs.ImageFilesAdd | helpers.py:118-130 | adding a row with a fresh id adds exactly its two files |
| LibraryProofs.ImageFilesSameShape | helpers.py:263 | rows with the same keys and extensions keep the same files |
| LibraryProofs.RecompressKeepsOne | helpers.py:194-209 | exactly one of the two candidate originals survives, the one with the reported extension |
| LibraryProofs.StoreAddsTwoFiles | helpers.py:110-131 | storing adds exactly the final original and the thumbnail the record names |
| LibraryProofs.AddKeepsTracking | helpers.py:118-131 | a fresh row with its two files keeps the directory in step with the rows |
| LibraryProofs.CommitKeepsValid | helpers.py:110-137 | after the original is saved, the rest of the upload keeps the library valid and adds exactly the new image's two files |
| LibraryProofs.SavedAtStoredPath | helpers.py:91-103 | both branches save the original at `{dir}/{id}{ext}` |
| LibraryProofs.UploadCases | helpers.py:60-108 | an upload stops before saving with nothing changed, or is the recording step applied to the saved original |
| LibraryProofs.AcceptedUrlFetches | helpers.py:69-95 | an upload of an accepted URL is the fetch-and-write step followed by the recording step on the written original |
| LibraryProofs.UploadKeepsValid | helpers.py:60-139 | an upload keeps the library valid whatever it returns; a recorded upload adds exactly its original and thumbnail, also when the board thumbnail step raises after the commit |
| LibraryProofs.ThumbnailBoardRule | helpers.py:133-137 | when the board had no image, a returned outcome means a board with that key took `{id}{ext}` as its thumbnail; otherwise no board changes; it raises exactly when the board had no image and its key names no board |
| LibraryProofs.UploadBoardThumbnail | helpers.py:133-137 | a recorded upload into an empty board makes `{id}{ext}` that board's thumbnail; an upload into a non-empty board changes no board; an upload whose original is saved returns its image exactly when the board had an image or its key names a board |
| LibraryProofs.RefusedUrlIgnoresNetwork | helpers.py:69-72 | a refused URL yields the same result whatever the network and file system would do |
| LibraryProofs.InvalidTypeUploadRefused | tests.py:544-549 | uploading `https://pt.test/invalid.image` returns `False` and changes nothing |
| LibraryProofs.NotFoundUploadRaises | tests.py:551-556 | uploading `https://upload.wikimedia.org/Manul1a.jpg` when the server answers 404 raises `HTTPError` and changes nothing, where the test expects `False` |
| LibraryProofs.FileUploadUnchecked | helpers.py:96-108 | a file upload whose save succeeds never returns `False`, whatever its name |
| LibraryProofs.InvalidFileStillRecorded | tests.py:558-576 | `invalid.file` is refused by the file checker yet not refused by a file upload whose save succeeds |
| LibraryProofs.DeleteOwnImage | helpers.py:243-251 | in a valid library, deleting one's own image succeeds, drops the row and its two files, and keeps the library valid |
| LibraryProofs.DeleteRecorded | helpers.py:243-251 | deleting a just-added image restores the rows, files and grants |
| LibraryProofs.UploadThenDelete | helpers.py:60-139 | upload followed by delete by the uploader restores the rows, files and grants |
| LibraryProofs.CascadeEffect | helpers.py:260-262 | in a valid library the loop raises nothing, removes exactly the user's images among the ids with their files, and keeps the library valid |
| LibraryProofs.DeleteBoardEffect | helpers.py:256-265 | deleting an owned board returns `True`, removes exactly that board and its grants, deletes the owner's images in it, unfiles the others, leaves every other field of every surviving row as it was, and keeps the library valid |
| LibraryProofs.DeleteBoardThenNoImages | helpers.py:256-265 | afterwards, when the user had no other board of that name, the listing by that name is empty |
| LibraryProofs.FirstMatchAppend | helpers.py:225-234 | appending a board changes the first match only when there was none |
| LibraryProofs.CreateBoardLookup | helpers.py:218-234 | a new board is found by name exactly when no earlier board of the same name and owner exists |
| LibraryProofs.DuplicateBoardShadowed | helpers.py:218-240 | creating a duplicate leaves the listing by that name unchanged |
| LibraryProofs.IdReuse | helpers.py:62-66 | after the largest-id image is deleted the next id does not exceed it |

## Left out

- Network, file contents and image codecs: `urlopen`, `open(...).write`, `save`, Pillow's re-encoding and `os.path.getsize` are not modelled. Their results come in through `Io`: the final HTTP status or a failed request, write and save success, and the two file sizes. A Pillow decoding failure is not modelled.
- Library.Fetch: the redirects `urlopen` follows are not modelled; `Response` carries the final status after them. Of `urlopen`'s error handling only the rule of its HTTP error processor is modelled: a final status outside 2xx raises `HTTPError`.
- A partial file left behind by a failed write or save is not modelled. The state is unchanged on those paths.
- `thumbnail_generator`'s resizing to 640x480 and its quality setting are not modelled. Only the output path is.
- `secure_filename` is a parameter (`Io.sanitize`). The properties that follow the file name through the pipeline require that the extension it yields is not a bare `.`. The real sanitiser strips trailing dots, and `Naming.ThumbnailOutputOfBareDot` shows what goes wrong otherwise.
- The lemmas require a non-empty upload directory without a trailing slash (`Naming.PlainDir`), because paths are modelled as plain strings and `os.path.split` strips such a slash. The empty directory `""` is excluded too: `os.path.join("", name)` gives `name`, not `/name`.
- `urlparse` is modelled up to its path component, with the cleaning `urlsplit` applies first: leading C0 controls and spaces are stripped and every tab, carriage return and line feed is deleted. For the schemes urllib lists in `uses_params` (among them `http` and `https`), the path stops at the first `;` after its last slash. Three parts of it are not modelled:
  - the `ValueError` raised for an unbalanced `[` or `]` in the network location;
  - the `ValueError` raised for a balanced bracketed host that is not an IP literal (`https://[x]/a.png`, `https://[]/a.png`) or that has text before its `[` (`https://a[::1]/a.png`);
  - the NFKC check of a network location holding non-ASCII characters.
  `PyPath.UrlPathAfterHost` therefore requires a host without brackets.
- PyPath.UrlPath: returns a path for every URL, including those whose bracketed host makes `urlsplit` raise `ValueError`; telling an IP literal from other bracketed text needs Python's `ipaddress` parser, which is not modelled. For such a URL `Checkers.UploadUrlChecker` gives a verdict where `upload_url_checker` raises.
- PyStr.Lower: lowers ASCII letters only. This is enough for the checkers: the only non-ASCII characters whose `lower()` holds an ASCII letter are U+0130, which lowers to `i` followed by a combining dot, and U+212A, which lowers to `k`. Neither can complete an allowed extension, so the verdicts are unchanged. The extension that is stored comes from `secure_filename`, whose output is ASCII.
- `file_extension` and `thumbnail` of an image are nullable columns that every upload fills in, so they are plain strings.
- bcrypt hashing and the password check, `get_images_by_user`, the user, sharing and email helpers, the Flask routes, the seeding scripts and database set-up are not modelled. They are outside the library core.
- Concurrency between requests is not modelled. Each operation is one atomic step on the state.
- Library.Cascade: deletes ids lowest first. The database returns them in an unspecified order; the order matters only for which files are gone when a missing file raises.
- Library.Cascade: the contract states only what the loop leaves untouched; what it removes is stated in a valid library by `LibraryProofs.CascadeEffect`.
- Library.DeleteBoard: the contract states only the not-found case; the success case is `LibraryProofs.DeleteBoardEffect`, in a valid library.

=== FILE: checkers.dfy ===
/** The two extension checks of the image library: one for the URL of an
    image to be fetched and one for the name of an uploaded file. Both look
    only at the extension of the last path component, compared without
    regard to ASCII case against a fixed allow-list.
 */
module Checkers {
  import opened PyStr
  import opened PyPath

  /** The extensions both checkers accept. */
  const AllowedExtensions: set<string> := {".webp", ".png", ".jpg", ".jpeg", ".gif"}

  /** A reading of "has an allowed extension" that does not go through
      `splitext`: the name ends, ignoring case, with an allowed extension,
      and what comes before it is not made of dots only. */
  predicate EndsWithAllowed(name: string) {
    exists a :: a in AllowedExtensions && |a| < |name|
      && Lower(name[|name| - |a|..]) == a && HasNonDot(name[..|name| - |a|])
  }

  /** `upload_url_checker`: the extension of the basename of the URL's path.
      A URL passes exactly when the last component of its path ends with an
      allowed extension. */
  function UploadUrlChecker(requestedUrl: string): (valid: bool)
    ensures valid <==> EndsWithAllowed(Basename(UrlPath(requestedUrl)))
  {
    var filename := Basename(UrlPath(requestedUrl));
    ExtAllowedIff(filename);
    Lower(Ext(filename)) in AllowedExtensions
  }

  /** `uploaded_file_checker`: the extension of the basename of the name.
      A file name passes exactly when its last component ends with an
      allowed extension. */
  function UploadedFileChecker(filename: string): (valid: bool)
    ensures valid <==> EndsWithAllowed(Basename(filename))
  {
    var name := Basename(filename);
    ExtAllowedIff(name);
    var fileExtension := Lower(Ext(name));
    Lower(fileExtension) in AllowedExtensions
  }

  /** Both checkers judge a URL path and a file name alike: the URL checker is
      the file checker applied to the URL's path. */
  lemma CheckersAgree(requestedUrl: string)
    ensures UploadUrlChecker(requestedUrl) == UploadedFileChecker(UrlPath(requestedUrl))
  {
    ExtAllowedIff(Basename(UrlPath(requestedUrl)));
  }

  lemma AllowedAreExtensions(a: string)
    requires a in AllowedExtensions
    ensures |a| >= 2 && a[0] == '.' && Lower(a) == a
    ensures forall i :: 1 <= i < |a| ==> a[i] != '.' && a[i] != '/'
  {
  }

  /** An extension `splitext` finds and the allow-list accepts is a suffix
      the suffix test accepts. */
  lemma AllowedExtIsSuffix(name: string)
    requires NoSlash(name)
    requires Lower(Ext(name)) in AllowedExtensions
    ensures EndsWithAllowed(name)
  {
    var e := Ext(name);
    var a := Lower(e);
    assert RFind(name, '/') == -1;
    var dot := RFind(name, '.');
    AllowedAreExtensions(a);
    assert e != "";
    assert dot > -1 && HasNonDot(name[..dot]) && e == name[dot..];
    assert |name| - |a| == dot;
  }

  /** A suffix the suffix test accepts is the extension `splitext` finds. */
  lemma SuffixIsAllowedExt(name: string)
    requires NoSlash(name)
    requires EndsWithAllowed(name)
    ensures Lower(Ext(name)) in AllowedExtensions
  {
    var a :| a in AllowedExtensions && |a| < |name|
      && Lower(name[|name| - |a|..]) == a && HasNonDot(name[..|name| - |a|]);
    AllowedAreExtensions(a);
    var k := |name| - |a|;
    assert LowerChar(name[k]) == a[0];
    forall j | k < j < |name|
      ensures name[j] != '.'
    {
      assert LowerChar(name[j]) == a[j - k];
    }
    ExtOfName(name, k);
  }

  /** For a name without slashes, the `splitext` test and the suffix test agree. */
  lemma ExtAllowedIff(name: string)
    requires NoSlash(name)
    ensures Lower(Ext(name)) in AllowedExtensions <==> EndsWithAllowed(name)
    ensures Lower(Lower(Ext(name))) == Lower(Ext(name))
  {
    if Lower(Ext(name)) in AllowedExtensions {
      AllowedExtIsSuffix(name);
    }
    if EndsWithAllowed(name) {
      SuffixIsAllowedExt(name);
    }
  }

  /** A name whose fourth- and fifth-last characters are not dots cannot end
      with an allowed extension. */
  lemma NoDotBeforeSuffix(name: string)
    requires |name| >= 5 && name[|name| - 4] != '.' && name[|name| - 5] != '.'
    ensures !EndsWithAllowed(name)
  {
    forall a | a in AllowedExtensions && |a| < |name|
      ensures Lower(name[|name| - |a|..]) != a
    {
      AllowedAreExtensions(a);
      assert Lower(name[|name| - |a|..])[0] != a[0];
    }
  }

  /** A lone name (no directories) that the checkers must refuse. */
  lemma InvalidImageName(name: string)
    requires name == "invalid.image"
    ensures NoSlash(name) && !EndsWithAllowed(name)
  {
    forall i | 0 <= i < |name| ensures name[i] != '/' {
      assert name[i] in "invalid.image";
    }
    NoDotBeforeSuffix(name);
  }

  /** The paths of the two test URLs of the library's URL uploads,
      `https://pt.test/invalid.image` and
      `https://upload.wikimedia.org/Manul1a.jpg`. */
  lemma TestUrlPath(u: string, scheme: string, host: string, path: string)
    requires scheme == "https"
    requires (host == "pt.test" && path == "/invalid.image")
          || (host == "upload.wikimedia.org" && path == "/Manul1a.jpg")
    requires u == scheme + "://" + host + path
    ensures UrlPath(u) == path
  {
    HttpsScheme(scheme);
    TestHostClean(host);
    assert forall j :: 0 <= j < |path| ==>
      path[j] != '?' && path[j] != '#' && !IsUnsafeUrlChar(path[j]) && path[j] != ';'
    by {
      forall j | 0 <= j < |path|
        ensures path[j] != '?' && path[j] != '#' && !IsUnsafeUrlChar(path[j]) && path[j] != ';'
      {
        if path == "/invalid.image" {
          assert path[j] in "/invalid.image";
        } else {
          assert path[j] in "/Manul1a.jpg";
        }
      }
    }
    assert u == scheme + "://" + host + path + "";
    UrlPathAfterHostPlain(scheme, host, path, "");
  }

  /** `https` is a well-formed scheme that takes `;params`. */
  lemma HttpsScheme(scheme: string)
    requires scheme == "https"
    ensures |scheme| > 0 && IsAsciiLetter(scheme[0])
    ensures forall j :: 0 <= j < |scheme| ==> IsSchemeChar(scheme[j])
    ensures Lower(scheme) in ParamSchemes
  {
    forall j | 0 <= j < |scheme| ensures IsSchemeChar(scheme[j]) {
      assert scheme[j] in "https";
    }
    assert Lower(scheme) == scheme;
  }

  /** The hosts of the test URLs hold nothing that ends or brackets a host. */
  lemma TestHostClean(host: string)
    requires host == "pt.test" || host == "upload.wikimedia.org" || host == "h"
    ensures forall j :: 0 <= j < |host| ==>
      host[j] != '/' && host[j] != '?' && host[j] != '#' && !IsUnsafeUrlChar(host[j])
        && host[j] != '[' && host[j] != ']'
  {
    forall j | 0 <= j < |host|
      ensures host[j] != '/' && host[j] != '?' && host[j] != '#' && !IsUnsafeUrlChar(host[j])
        && host[j] != '[' && host[j] != ']'
    {
      if host == "pt.test" {
        assert host[j] in "pt.test";
      } else if host == "h" {
        assert host[j] in "h";
      } else {
        assert host[j] in "upload.wikimedia.org";
      }
    }
  }

  /** A URL is rejected when the last component of its path has no allowed
      extension. */
  lemma UrlRejectedByName(u: string, name: string)
    requires Basename(UrlPath(u)) == name && !EndsWithAllowed(name)
    ensures !UploadUrlChecker(u)
  {
  }

  /** A URL whose path is `/invalid.image` is rejected. */
  lemma InvalidImagePathRejected(u: string, path: string, name: string)
    requires name == "invalid.image" && path == "/" + name && UrlPath(u) == path
    ensures !UploadUrlChecker(u)
  {
    InvalidImageName(name);
    BasenameUnderRoot(name);
    UrlRejectedByName(u, name);
  }

  /** The URL of the library's invalid-type test is rejected. */
  lemma InvalidTypeUrlRejected(u: string, scheme: string, host: string, name: string)
    requires scheme == "https" && host == "pt.test" && name == "invalid.image"
    requires u == scheme + "://" + host + "/" + name
    ensures !UploadUrlChecker(u)
  {
    var path := "/" + name;
    assert u == scheme + "://" + host + path;
    TestUrlPath(u, scheme, host, path);
    InvalidImagePathRejected(u, path, name);
  }

  /** `Manul1a.jpg` has no slash and its lowered extension is `.jpg`. */
  lemma NotFoundName(name: string)
    requires name == "Manul1a.jpg"
    ensures NoSlash(name) && Lower(Ext(name)) == ".jpg"
  {
    forall i | 0 <= i < |name| ensures name[i] != '/' {
      assert name[i] in "Manul1a.jpg";
    }
    assert name[..7][0] == 'M';
    forall j | 7 < j < |name| ensures name[j] != '.' {
      assert name[j] in "jpg";
    }
    ExtOfName(name, 7);
    assert Lower(name[7..]) == ".jpg";
  }

  /** A URL is accepted when the last component of its path has an allowed
      lowered extension. */
  lemma UrlAcceptedByExt(u: string, name: string)
    requires Basename(UrlPath(u)) == name && Lower(Ext(name)) in AllowedExtensions
    ensures UploadUrlChecker(u)
  {
  }

  /** The URL of the library's not-found test passes the URL checker, so the
      upload goes on to fetch it. */
  lemma NotFoundUrlAccepted(u: string, scheme: string, host: string, name: string)
    requires scheme == "https" && host == "upload.wikimedia.org" && name == "Manul1a.jpg"
    requires u == scheme + "://" + host + "/" + name
    ensures UploadUrlChecker(u)
  {
    var path := "/" + name;
    assert u == scheme + "://" + host + path;
    TestUrlPath(u, scheme, host, path);
    NotFoundName(name);
    BasenameUnderRoot(name);
    UrlAcceptedByExt(u, name);
  }

  /** `https://h/a;b.png` is refused: for an `https` URL the `;b.png` is
      params, not part of the path, so the last path component is `a`. */
  lemma ParamsHideExtension(u: string, scheme: string, host: string, name: string, params: string)
    requires scheme == "https" && host == "h" && name == "a" && params == "b.png"
    requires u == scheme + "://" + host + "/" + name + ";" + params
    ensures UrlPath(u) == "/a"
    ensures !UploadUrlChecker(u)
  {
    ParamsExampleUrlPath(u, scheme, host, name, params);
    ExamplePath(name);
    BasenameUnderRoot(name);
    assert !EndsWithAllowed(name) by {
      forall a | a in AllowedExtensions ensures |a| >= 2 {
        AllowedAreExtensions(a);
      }
    }
    UrlRejectedByName(u, name);
  }

  /** `https://h/a.png;x` is accepted: the `;x` is params, so the last path
      component is `a.png`. */
  lemma ParamsAfterExtension(u: string, scheme: string, host: string, name: string, params: string)
    requires scheme == "https" && host == "h" && name == "a.png" && params == "x"
    requires u == scheme + "://" + host + "/" + name + ";" + params
    ensures UrlPath(u) == "/a.png"
    ensures UploadUrlChecker(u)
  {
    ParamsExampleUrlPath(u, scheme, host, name, params);
    ExamplePath(name);
    BasenameUnderRoot(name);
    PngExt(name);
    UrlAcceptedByExt(u, name);
  }

  /** The path of each params example is `/` and its name. */
  lemma ParamsExampleUrlPath(u: string, scheme: string, host: string, name: string, params: string)
    requires scheme == "https" && host == "h"
    requires (name == "a" && params == "b.png") || (name == "a.png" && params == "x")
    requires u == scheme + "://" + host + "/" + name + ";" + params
    ensures UrlPath(u) == "/" + name
    ensures NoSlash(name)
  {
    var path := "/" + name + ";" + params;
    assert u == scheme + "://" + host + path + "";
    HttpsScheme(scheme);
    TestHostClean(host);
    assert forall j :: 0 <= j < |name| ==>
      name[j] != '/' && name[j] != ';' && name[j] != '?' && name[j] != '#' && !IsUnsafeUrlChar(name[j])
    by {
      forall j | 0 <= j < |name|
        ensures name[j] != '/' && name[j] != ';' && name[j] != '?' && name[j] != '#' && !IsUnsafeUrlChar(name[j])
      {
        assert name[j] in "a.png";
      }
    }
    assert forall j :: 0 <= j < |params| ==>
      params[j] != '/' && params[j] != '?' && params[j] != '#' && !IsUnsafeUrlChar(params[j])
    by {
      forall j | 0 <= j < |params|
        ensures params[j] != '/' && params[j] != '?' && params[j] != '#' && !IsUnsafeUrlChar(params[j])
      {
        assert params[j] in "b.pngx";
      }
    }
    UrlPathDropsParams(scheme, host, path, name, params, "");
  }

  /** The rooted paths of the two example names. */
  lemma ExamplePath(name: string)
    requires name == "a" || name == "a.png"
    ensures "/" + name == if name == "a" then "/a" else "/a.png"
  {
  }

  /** The lowered extension of `a.png` is `.png`. */
  lemma PngExt(name: string)
    requires name == "a.png"
    ensures Lower(Ext(name)) == ".png"
  {
    forall i | 0 <= i < |name| ensures name[i] != '/' {
      assert name[i] in "a.png";
    }
    assert name[..1][0] == 'a';
    ExtOfName(name, 1);
    assert Lower(name[1..]) == ".png";
  }

  /** `invalid.file`, the name the library's failed-save test uploads, has no
      allowed extension. */
  lemma InvalidFileRejected(name: string)
    requires name == "invalid.file"
    ensures !UploadedFileChecker(name)
  {
    InvalidFileExt(name);
    FileExtNotAllowed(".file");
    FileRejectedByExt(name, ".file");
  }

  /** `.file` is not an allowed extension, in any case. */
  lemma FileExtNotAllowed(e: string)
    requires e == ".file"
    ensures Lower(e) !in AllowedExtensions
  {
    assert Lower(e) == e;
  }

  /** A file name is rejected when the lowered extension of its last
      component is not an allowed one. */
  lemma FileRejectedByExt(filename: string, e: string)
    requires Lower(Ext(Basename(filename))) == e && Lower(e) !in AllowedExtensions
    ensures !UploadedFileChecker(filename)
  {
  }

  /** The lowered extension of `invalid.file` is `.file`. */
  lemma InvalidFileExt(name: string)
    requires name == "invalid.file"
    ensures Lower(Ext(Basename(name))) == ".file"
  {
    forall i | 0 <= i < |name| ensures name[i] != '/' {
      assert name[i] in "invalid.file";
    }
    BasenameOfName(name);
    assert name[0] != '.';
    ExtOfName(name, 7);
    assert Lower(name[7..]) == ".file";
  }

  /** A leading dot does not start an extension: `.jpg` and the like are refused. */
  lemma LeadingDotRejected(word: string)
    requires forall j :: 0 <= j < |word| ==> word[j] != '.' && word[j] != '/'
    ensures !UploadedFileChecker("." + word)
  {
    DotNameHasNoExt(word);
    assert Lower("") == "";
  }
}

=== FILE: entities.dfy ===
/** The three kinds of record the image library stores (users, boards and
    images), the board-sharing relation, and the text each record shows as
    its `repr`.
 */
module Entities {
  import opened Results
  import opened PyStr

  /** A row of `users`. The password hash is the opaque bytes bcrypt produced. */
  datatype User = User(userId: nat, username: string, email: string, passwordHashed: seq<bv8>)

  /** A row of `boards`. Every column but the thumbnail is required; the
      thumbnail, when present, is the stored file name `{id}{ext}` of an image. */
  datatype Board = Board(
    boardId: nat,
    thumbnail: Option<string>,
    name: string,
    icon: string,
    hexCode: string,
    userId: nat)

  /** A row of `images`. The URL is required but empty for an uploaded file;
      the board is optional. `thumbnail` and `fileExtension` are nullable
      columns that every upload fills in, so they are plain strings here. */
  datatype Image = Image(
    imageId: nat,
    thumbnail: string,
    url: string,
    fileExtension: string,
    notes: Option<string>,
    private: bool,
    userId: nat,
    boardId: Option<nat>)

  /** A row of `shared_boards`: board `boardId` is shared with user `userId`.
      The pair is the table's primary key, so the relation is a set of grants. */
  datatype Grant = Grant(boardId: nat, userId: nat)

  const UserOpen := "<User user_id="
  const UserSep := ", username="
  const EmailSep := ", email="
  const BoardOpen := "<Board board_id="
  const BoardSep := ", name="
  const ImageOpen := "<Image image_id="
  const ImageSep := ", url="

  /** `User.__repr__`. */
  function UserRepr(u: User): string {
    UserOpen + Decimal(u.userId) + UserSep + u.username + EmailSep + u.email + ">"
  }

  /** `Board.__repr__`. */
  function BoardRepr(b: Board): string {
    BoardOpen + Decimal(b.boardId) + BoardSep + b.name + ">"
  }

  /** `Image.__repr__`. */
  function ImageRepr(i: Image): string {
    ImageOpen + Decimal(i.imageId) + ImageSep + i.url + ">"
  }

  /** Reads back a text of the form `{open}{n}{sep}{body}>`: the number and
      the body, or `None` when the text does not have that form. */
  function ParseTagged(s: string, open: string, sep: string): Option<(nat, string)> {
    if |s| < |open| || s[..|open|] != open then None
    else
      var rest := s[|open|..];
      var digits := TakeDigits(rest);
      var after := rest[|digits|..];
      if |digits| == 0 || |after| < |sep| + 1 || after[..|sep|] != sep || after[|after| - 1] != '>' then None
      else Some((ParseNat(digits), after[|sep|..|after| - 1]))
  }

  /** `ParseTagged` undoes the formatting of any number and body, provided
      the separator does not start with a digit. */
  lemma ParseTaggedRoundTrip(open: string, n: nat, sep: string, body: string)
    requires |sep| > 0 && !IsDigit(sep[0])
    ensures ParseTagged(open + Decimal(n) + sep + body + ">", open, sep) == Some((n, body))
  {
    var d := Decimal(n);
    var s := open + d + sep + body + ">";
    var rest := d + (sep + body + ">");
    assert s[..|open|] == open;
    assert s[|open|..] == rest;
    TakeDigitsPrefix(d, sep + body + ">");
    var after := sep + body + ">";
    assert rest[|d|..] == after;
    assert after[..|sep|] == sep;
    assert after[|sep|..|after| - 1] == body;
    ParseDecimal(n);
  }

  /** An image's `repr` gives back its id and its URL. */
  lemma ImageReprRoundTrip(i: Image)
    ensures ParseTagged(ImageRepr(i), ImageOpen, ImageSep) == Some((i.imageId, i.url))
  {
    ParseTaggedRoundTrip(ImageOpen, i.imageId, ImageSep, i.url);
  }

  /** A board's `repr` gives back its id and its name. */
  lemma BoardReprRoundTrip(b: Board)
    ensures ParseTagged(BoardRepr(b), BoardOpen, BoardSep) == Some((b.boardId, b.name))
  {
    ParseTaggedRoundTrip(BoardOpen, b.boardId, BoardSep, b.name);
  }

  /** A user's `repr` gives back the id, followed by the username and the
      email as they were written. */
  lemma UserReprRoundTrip(u: User)
    ensures ParseTagged(UserRepr(u), UserOpen, UserSep) == Some((u.userId, u.username + EmailSep + u.email))
  {
    var body := u.username + EmailSep + u.email;
    ParseTaggedRoundTrip(UserOpen, u.userId, UserSep, body);
    assert UserRepr(u) == UserOpen + Decimal(u.userId) + UserSep + body + ">";
  }

  /** Two images with the same `repr` have the same id and URL. */
  lemma ImageReprDetermines(a: Image, b: Image)
    requires ImageRepr(a) == ImageRepr(b)
    ensures a.imageId == b.imageId && a.url == b.url
  {
    ImageReprRoundTrip(a);
    ImageReprRoundTrip(b);
  }

  /** Two boards with the same `repr` have the same id and name. */
  lemma BoardReprDetermines(a: Board, b: Board)
    requires BoardRepr(a) == BoardRepr(b)
    ensures a.boardId == b.boardId && a.name == b.name
  {
    BoardReprRoundTrip(a);
    BoardReprRoundTrip(b);
  }
}

=== FILE: library.dfy ===
/** The image library's bookkeeping as pure state transitions.

    The database and the upload directory are one immutable `State`. Each
    operation returns its Python result together with the state after it.
    What the outside world answers during an upload (the HTTP reply, whether
    a write or save succeeds, the file sizes Pillow produces, and what
    `secure_filename` makes of a name) arrives as an `Io` value.
 */
module Library {
  import opened Results
  import opened PyStr
  import opened PyPath
  import opened Checkers
  import opened Naming
  import opened Entities

  /** Image rows keyed by id; board rows in insertion order, which is the
      order in which `.first()` meets them; the sharing grants; and the paths
      of the files present under the upload directory. */
  datatype State = State(
    images: map<nat, Image>,
    boards: seq<Board>,
    grants: set<Grant>,
    files: set<string>)

  /** `upload_image` is given either the URL of an image to fetch or an
      uploaded file, of which only the name matters here. */
  datatype Source = FromUrl(url: string) | FromFile(filename: string)

  /** What the server does with the request: answer with a final status
      (after any redirects), or fail before answering. */
  datatype FetchReply = Response(status: int) | FetchRaised

  /** The statuses `urlopen` hands back as a response; its HTTP error
      processor turns every other final status into a raised `HTTPError`. */
  predicate SuccessStatus(status: int) {
    200 <= status < 300
  }

  /** The outside world's answers during one upload. */
  datatype Io = Io(
    sanitize: string -> string, // werkzeug's `secure_filename`
    fetch: FetchReply,          // the HTTP request for a URL upload
    writeOk: bool,              // writing the fetched bytes to disk
    saveOk: bool,               // `FileStorage.save` of an uploaded file
    sourceSize: nat,            // size of the stored original
    webpSize: nat)              // size of its WebP re-encoding

  // ---------------------------------------------------------------- ids

  /** `m` bounds `s` from above. */
  predicate Above(s: set<nat>, m: nat) {
    forall k :: k in s ==> k <= m
  }

  /** `m` bounds `s` from below. */
  predicate Below(s: set<nat>, m: nat) {
    forall k :: k in s ==> m <= k
  }

  lemma {:induction false} ExistsGreatest(s: set<nat>)
    requires s != {}
    ensures exists m :: m in s && Above(s, m)
  {
    var x :| x in s;
    var rest := s - {x};
    if rest == {} {
      assert s == {x};
      assert Above(s, x);
    } else {
      ExistsGreatest(rest);
      var m :| m in rest && Above(rest, m);
      var g := if x <= m then m else x;
      assert s == rest + {x};
      assert Above(s, g);
      assert g in s;
    }
  }

  lemma {:induction false} ExistsLeast(s: set<nat>)
    requires s != {}
    ensures exists m :: m in s && Below(s, m)
  {
    var x :| x in s;
    var rest := s - {x};
    if rest == {} {
      assert s == {x};
      assert Below(s, x);
    } else {
      ExistsLeast(rest);
      var m :| m in rest && Below(rest, m);
      var g := if m <= x then m else x;
      assert s == rest + {x};
      assert Below(s, g);
      assert g in s;
    }
  }

  function Greatest(s: set<nat>): (m: nat)
    requires s != {}
    ensures m in s && forall k :: k in s ==> k <= m
  {
    ExistsGreatest(s);
    var m :| m in s && Above(s, m);
    m
  }

  function Least(s: set<nat>): (m: nat)
    requires s != {}
    ensures m in s && forall k :: k in s ==> m <= k
  {
    ExistsLeast(s);
    var m :| m in s && Below(s, m);
    m
  }

  /** The id `upload_image` gives a new image: one more than the largest id
      in use, or 1 when there is none. A largest id of 0 is falsy in Python
      and also yields 1. The same number is what SQLite assigns as the new
      row's key, so the file names and the record agree. */
  function NextImageId(images: map<nat, Image>): (r: nat)
    ensures r >= 1
    ensures forall k :: k in images ==> k < r
    ensures r == 1 || r - 1 in images
  {
    if images == map[] then 1
    else
      var last := Greatest(images.Keys);
      if last == 0 then 1 else last + 1
  }

  /** The key SQLite assigns to a new board: one more than the largest in use. */
  function NextBoardId(boards: seq<Board>): (r: nat)
    ensures r >= 1
    ensures forall i :: 0 <= i < |boards| ==> boards[i].boardId < r
    ensures r == 1 || exists i :: 0 <= i < |boards| && boards[i].boardId == r - 1
  {
    if |boards| == 0 then 1
    else
      var earlier := NextBoardId(boards[..|boards| - 1]);
      var last := boards[|boards| - 1].boardId + 1;
      if last > earlier then last else earlier
  }

  // ---------------------------------------------------------- lookups

  /** The index of the first board satisfying `p`, as `.first()` finds it. */
  function FirstMatch(boards: seq<Board>, p: Board -> bool): (r: Option<nat>)
    ensures r.Some? ==> r.value < |boards| && p(boards[r.value])
    ensures r.Some? ==> forall j :: 0 <= j < r.value ==> !p(boards[j])
    ensures r.None? ==> forall j :: 0 <= j < |boards| ==> !p(boards[j])
  {
    if |boards| == 0 then None
    else if p(boards[0]) then Some(0)
    else match FirstMatch(boards[1..], p)
      case None => None
      case Some(i) => Some(i + 1)
  }

  /** The board named `name` owned by `userId`, the lookup shared by
      `board_images_for_user` and `delete_board`. */
  function FindBoard(boards: seq<Board>, name: string, userId: nat): (r: Option<nat>)
    ensures r.Some? ==> r.value < |boards| && boards[r.value].name == name && boards[r.value].userId == userId
    ensures r.Some? ==> forall j :: 0 <= j < r.value ==> !(boards[j].name == name && boards[j].userId == userId)
    ensures r.None? <==> forall j :: 0 <= j < |boards| ==> !(boards[j].name == name && boards[j].userId == userId)
  {
    FirstMatch(boards, (b: Board) => b.name == name && b.userId == userId)
  }

  /** The board whose key is `boardId` (a key of `None` matches no board). */
  function FindBoardById(boards: seq<Board>, boardId: Option<nat>): Option<nat> {
    FirstMatch(boards, (b: Board) => Some(b.boardId) == boardId)
  }

  /** The ids of the images filed under `boardId`. A `None` board matches
      the images that have no board, as SQLAlchemy's `== None` does. */
  function BoardImageIds(images: map<nat, Image>, boardId: Option<nat>): (r: set<nat>)
    ensures r <= images.Keys
    ensures forall k :: k in images ==> (k in r <==> images[k].boardId == boardId)
  {
    set k | k in images && images[k].boardId == boardId
  }

  // ------------------------------------------------------------ upload

  /** `webp_if_larger`: writes the WebP re-encoding beside the image, then
      deletes whichever of the two is not strictly smaller. Returns whether
      the WebP copy was kept, and the files afterwards. */
  function WebpIfLarger(files: set<string>, imagePath: string, sourceSize: nat, webpSize: nat): (r: (bool, set<string>))
    ensures r.0 <==> webpSize < sourceSize
    ensures var out := WebpCandidatePath(imagePath);
      out != imagePath ==>
        (r.0 ==> out in r.1 && imagePath !in r.1)
        && (!r.0 ==> out !in r.1 && (imagePath in r.1 <==> imagePath in files))
    ensures forall f :: f != imagePath && f != WebpCandidatePath(imagePath) ==> (f in r.1 <==> f in files)
  {
    var outputPath := WebpCandidatePath(imagePath);
    var written := files + {outputPath};
    if webpSize < sourceSize then (true, written - {imagePath}) else (false, written - {outputPath})
  }

  /** The recompression rule: `.gif` and `.webp` stay as they are; any other
      extension becomes `.webp` exactly when the WebP copy is strictly
      smaller, so a tie keeps the original. */
  predicate RecompressionRule(ext: string, final: string, sourceSize: nat, webpSize: nat) {
    if ext == ".gif" || ext == ".webp" then final == ext
    else if webpSize < sourceSize then final == ".webp"
    else final == ext
  }

  /** The recompression step of `upload_image`: the final extension and the
      files after it. */
  function Recompress(files: set<string>, dir: string, id: nat, ext: string, sourceSize: nat, webpSize: nat): (r: (string, set<string>))
    ensures RecompressionRule(ext, r.0, sourceSize, webpSize)
    ensures ext == ".gif" || ext == ".webp" ==> r.1 == files
  {
    if ext != ".gif" && ext != ".webp" then
      var w := WebpIfLarger(files, StoredPath(dir, id, ext), sourceSize, webpSize);
      (if w.0 then ".webp" else ext, w.1)
    else (ext, files)
  }

  /** `thumbnail_generator`: adds the thumbnail it derives from the image
      path, overwriting any file already there, and removes nothing. */
  function ThumbnailGenerator(files: set<string>, imagePath: string): (r: set<string>)
    ensures ThumbnailOutputPath(imagePath) in r
    ensures forall f :: f != ThumbnailOutputPath(imagePath) ==> (f in r <==> f in files)
  {
    files + {ThumbnailOutputPath(imagePath)}
  }

  /** The extension `upload_image` reads off the (sanitised) name, lowered. */
  function UploadExtension(source: Source, io: Io): (ext: string)
    ensures ExtShape(ext)
  {
    match source
    case FromUrl(u) =>
      var e := Ext(io.sanitize(Basename(UrlPath(u))));
      LowerKeepsExtShape(e);
      Lower(e)
    case FromFile(f) =>
      var e := Ext(io.sanitize(f));
      LowerKeepsExtShape(e);
      Lower(e)
  }

  /** The URL an upload records: the input URL, or `""` for a file. */
  function SourceUrl(source: Source): string {
    match source
    case FromUrl(u) => u
    case FromFile(_) => ""
  }

  /** The path at which an upload stores its original before recompression. */
  function SavedPath(source: Source, dir: string, id: nat, ext: string): string {
    match source
    case FromUrl(_) => StoredPath(dir, id, ext)
    case FromFile(_) => Join(dir, StoredName(id, ext))
  }

  /** The image an upload records once its original is on disk: the next
      id, the thumbnail name that id gives, the source's URL, the extension
      the recompression rule decides, and the caller's fields. */
  predicate Recorded(st: State, after: State, url: string, ext: string, io: Io, img: Image,
                     notes: Option<string>, userId: nat, boardId: Option<nat>, private: bool)
  {
    var id := NextImageId(st.images);
    && img.imageId == id && id !in st.images
    && img.thumbnail == RecordThumbnail(id)
    && img.url == url
    && RecompressionRule(ext, img.fileExtension, io.sourceSize, io.webpSize)
    && img.notes == notes && img.private == private && img.userId == userId && img.boardId == boardId
    && after.images == st.images[id := img]
    && after.grants == st.grants
    && |after.boards| == |st.boards|
  }

  /** Lines 110-131 of `upload_image`, once the original is saved:
      recompress, make the thumbnail and record the image. Only the image
      rows and the files change. */
  function Store(st: State, files: set<string>, url: string, io: Io, id: nat, ext: string,
                 notes: Option<string>, userId: nat, boardId: Option<nat>, private: bool, dir: string)
    : (r: (Image, State))
    ensures r.0 == Image(id, RecordThumbnail(id), url, r.0.fileExtension, notes, private, userId, boardId)
    ensures RecompressionRule(ext, r.0.fileExtension, io.sourceSize, io.webpSize)
    ensures r.1 == State(st.images[id := r.0], st.boards, st.grants, r.1.files)
  {
    var rc := Recompress(files, dir, id, ext, io.sourceSize, io.webpSize);
    var image := Image(id, RecordThumbnail(id), url, rc.0, notes, private, userId, boardId);
    (image, State(st.images[id := image], st.boards, st.grants, ThumbnailGenerator(rc.1, StoredPath(dir, id, rc.0))))
  }

  /** Lines 133-137 of `upload_image`: when the new image is the only one
      filed under its board, the board takes `{id}{ext}` as its thumbnail;
      when no board has that key, setting the attribute on `None` raises,
      and that is the only way it raises. Only the board rows change. */
  function ThumbnailBoard(st: State, image: Image): (r: (Outcome<Option<Image>>, State))
    ensures r.0 == Raised(NoneAttribute) || r.0 == Returned(Some(image))
    ensures r.0 == Raised(NoneAttribute) <==>
      |BoardImageIds(st.images, image.boardId)| == 1
      && forall i :: 0 <= i < |st.boards| ==> Some(st.boards[i].boardId) != image.boardId
    ensures r.0.Raised? ==> r.1 == st
    ensures r.1.images == st.images && r.1.grants == st.grants && r.1.files == st.files
    ensures |r.1.boards| == |st.boards|
  {
    if |BoardImageIds(st.images, image.boardId)| == 1 then
      match FindBoardById(st.boards, image.boardId)
      case None => (Raised(NoneAttribute), st)
      case Some(i) =>
        var board := st.boards[i].(thumbnail := Some(StoredName(image.imageId, image.fileExtension)));
        (Returned(Some(image)), st.(boards := st.boards[i := board]))
    else (Returned(Some(image)), st)
  }

  /** The code's test "the board now has exactly one image", made right
      after inserting a row with a fresh id, holds exactly when the board had
      no image before. */
  lemma CountAfterInsert(images: map<nat, Image>, img: Image)
    requires img.imageId !in images
    ensures |BoardImageIds(images[img.imageId := img], img.boardId)| == 1
      <==> BoardImageIds(images, img.boardId) == {}
  {
    var id := img.imageId;
    var after := images[id := img];
    assert BoardImageIds(after, img.boardId) == BoardImageIds(images, img.boardId) + {id};
    if BoardImageIds(images, img.boardId) != {} {
      var k :| k in BoardImageIds(images, img.boardId);
      assert {k, id} <= BoardImageIds(after, img.boardId);
      assert |{k, id}| == 2;
    }
  }

  /** Lines 110-139 of `upload_image`, once the original is saved. */
  function Commit(st: State, files: set<string>, url: string, io: Io, id: nat, ext: string,
                  notes: Option<string>, userId: nat, boardId: Option<nat>, private: bool, dir: string)
    : (r: (Outcome<Option<Image>>, State))
    requires id == NextImageId(st.images)
    ensures r.0 == Raised(NoneAttribute) || (r.0.Returned? && r.0.value.Some?)
    ensures r.0.Returned? ==> Recorded(st, r.1, url, ext, io, r.0.value.value, notes, userId, boardId, private)
    ensures r.0 == Raised(NoneAttribute) ==>
      id in r.1.images && Recorded(st, r.1, url, ext, io, r.1.images[id], notes, userId, boardId, private)
    ensures r.0 == Raised(NoneAttribute) <==>
      BoardImageIds(st.images, boardId) == {}
      && forall i :: 0 <= i < |st.boards| ==> Some(st.boards[i].boardId) != boardId
  {
    var stored := Store(st, files, url, io, id, ext, notes, userId, boardId, private, dir);
    CountAfterInsert(st.images, stored.0);
    ThumbnailBoard(stored.1, stored.0)
  }

  /** Lines 83-95 of `upload_image`: fetch the URL and write the reply to
      the upload directory, then carry on as `stored`. A failed request, a
      final status outside 2xx and a failed write all raise and leave the
      library as it was; a 2xx status other than 200 is `False`. */
  function Fetch(st: State, io: Io, stored: (Outcome<Option<Image>>, State)): (r: (Outcome<Option<Image>>, State))
    ensures io.fetch.FetchRaised? ==> r == (Raised(HttpError), st)
    ensures io.fetch.Response? && !SuccessStatus(io.fetch.status) ==> r == (Raised(HttpError), st)
    ensures io.fetch.Response? && SuccessStatus(io.fetch.status) && io.fetch.status != 200 ==> r == (Returned(None), st)
    ensures io.fetch == Response(200) && !io.writeOk ==> r == (Raised(WriteError), st)
    ensures io.fetch == Response(200) && io.writeOk ==> r == stored
  {
    match io.fetch
    case FetchRaised => (Raised(HttpError), st)
    case Response(status) =>
      if !SuccessStatus(status) then (Raised(HttpError), st)
      else if status != 200 then (Returned(None), st)
      else if !io.writeOk then (Raised(WriteError), st)
      else stored
  }

  /** The upload reaches the point where its original is on disk: an
      accepted URL answered with 200 and written, or an uploaded file saved. */
  predicate SavesOriginal(source: Source, io: Io) {
    match source
    case FromUrl(u) => UploadUrlChecker(u) && io.fetch == Response(200) && io.writeOk
    case FromFile(_) => io.saveOk
  }

  /** How `upload_image` ends when the original never reaches the disk:
      `False` or a raised exception, with nothing changed. */
  function Unsaved(st: State, source: Source, io: Io): (r: (Outcome<Option<Image>>, State))
    requires !SavesOriginal(source, io)
    ensures r.1 == st
    ensures r.0 == Returned(None) || r.0 == Raised(HttpError) || r.0 == Raised(WriteError)
    ensures source.FromFile? || !UploadUrlChecker(source.url) ==> r.0 == Returned(None)
    ensures source.FromUrl? && UploadUrlChecker(source.url) ==>
      && (io.fetch.FetchRaised? ==> r.0 == Raised(HttpError))
      && (io.fetch.Response? && !SuccessStatus(io.fetch.status) ==> r.0 == Raised(HttpError))
      && (io.fetch.Response? && SuccessStatus(io.fetch.status) && io.fetch.status != 200 ==> r.0 == Returned(None))
      && (io.fetch == Response(200) ==> r.0 == Raised(WriteError))
  {
    match source
    case FromUrl(u) =>
      if !UploadUrlChecker(u) then (Returned(None), st)
      // a 200 reply that is written would have saved the original, so the
      // continuation is never reached here
      else Fetch(st, io, (Returned(None), st))
    case FromFile(_) => (Returned(None), st)
  }

  /** `upload_image`. `Returned(None)` is Python's `False`. A URL whose
      extension is refused, a 2xx reply other than 200 and a failed save of
      an uploaded file all return it with nothing changed; a failed request,
      an error status or a failed write raises with nothing changed. Once
      the original is saved the image is recorded, even when the board
      thumbnail step then raises. The extension of an uploaded file is not
      checked. */
  function UploadImage(st: State, source: Source, notes: Option<string>, userId: nat, boardId: Option<nat>,
                       private: bool, uploadDir: string, io: Io): (r: (Outcome<Option<Image>>, State))
    ensures r.0 == Returned(None) ==> r.1 == st
    ensures r.0 == Raised(HttpError) || r.0 == Raised(WriteError) ==> r.1 == st
    ensures source.FromUrl? && !UploadUrlChecker(source.url) ==> r == (Returned(None), st)
    ensures source.FromFile? && !io.saveOk ==> r == (Returned(None), st)
    ensures source.FromUrl? && UploadUrlChecker(source.url) && io.fetch.FetchRaised? ==> r == (Raised(HttpError), st)
    ensures source.FromUrl? && UploadUrlChecker(source.url) && io.fetch.Response? && !SuccessStatus(io.fetch.status)
      ==> r == (Raised(HttpError), st)
    ensures source.FromUrl? && UploadUrlChecker(source.url) && io.fetch.Response?
         && SuccessStatus(io.fetch.status) && io.fetch.status != 200
      ==> r == (Returned(None), st)
    ensures source.FromUrl? && UploadUrlChecker(source.url) && io.fetch == Response(200) && !io.writeOk
      ==> r == (Raised(WriteError), st)
    ensures (source.FromUrl? && UploadUrlChecker(source.url) && io.fetch == Response(200) && io.writeOk)
         || (source.FromFile? && io.saveOk)
      ==> r.0 == Raised(NoneAttribute) || (r.0.Returned? && r.0.value.Some?)
    ensures r.0.Returned? && r.0.value.Some? ==>
      Recorded(st, r.1, SourceUrl(source), UploadExtension(source, io), io, r.0.value.value, notes, userId, boardId, private)
    ensures r.0 == Raised(NoneAttribute) ==>
      NextImageId(st.images) in r.1.images
      && Recorded(st, r.1, SourceUrl(source), UploadExtension(source, io), io, r.1.images[NextImageId(st.images)],
                  notes, userId, boardId, private)
    ensures SavesOriginal(source, io) ==>
      (r.0 == Raised(NoneAttribute) <==>
         BoardImageIds(st.images, boardId) == {}
         && forall i :: 0 <= i < |st.boards| ==> Some(st.boards[i].boardId) != boardId)
  {
    var id := NextImageId(st.images);
    var ext := UploadExtension(source, io);
    var saved := st.files + {SavedPath(source, uploadDir, id, ext)};
    if SavesOriginal(source, io) then
      Commit(st, saved, SourceUrl(source), io, id, ext, notes, userId, boardId, private, uploadDir)
    else Unsaved(st, source, io)
  }

  // ------------------------------------------------------------ boards

  /** `create_board`: appends a board with a fresh key and no thumbnail. An
      existing board of the same name and owner is not checked for. */
  function CreateBoard(st: State, name: string, icon: string, hexCode: string, userId: nat): (r: (Board, State))
    ensures r.0.name == name && r.0.icon == icon && r.0.hexCode == hexCode && r.0.userId == userId
    ensures r.0.thumbnail == None
    ensures forall i :: 0 <= i < |st.boards| ==> st.boards[i].boardId != r.0.boardId
    ensures r.1.boards == st.boards + [r.0]
    ensures r.1.images == st.images && r.1.grants == st.grants && r.1.files == st.files
  {
    var board := Board(NextBoardId(st.boards), None, name, icon, hexCode, userId);
    (board, st.(boards := st.boards + [board]))
  }

  /** `board_images_for_user`: the images filed under the board that
      `userId` owns under the name `boardString`, whoever uploaded them; none
      when there is no such board. */
  function BoardImagesForUser(st: State, userId: nat, boardString: string): (r: map<nat, Image>)
    ensures forall k :: k in r ==> k in st.images && r[k] == st.images[k]
    ensures FindBoard(st.boards, boardString, userId).None? ==> r == map[]
    ensures FindBoard(st.boards, boardString, userId).Some? ==>
      forall k :: k in r <==>
        (k in st.images && st.images[k].boardId == Some(st.boards[FindBoard(st.boards, boardString, userId).value].boardId))
  {
    match FindBoard(st.boards, boardString, userId)
    case None => map[]
    case Some(i) =>
      var ids := BoardImageIds(st.images, Some(st.boards[i].boardId));
      map k | k in ids :: st.images[k]
  }

  /** `board_thumbnail_set`: assigns an attribute the Board mapping does not
      declare, so nothing is stored; it raises only when there is no board
      with that key. */
  function BoardThumbnailSet(st: State, boardId: nat, imageId: nat): (r: (Outcome<()>, State))
    ensures r.1 == st
    ensures r.0.Raised? <==> forall i :: 0 <= i < |st.boards| ==> st.boards[i].boardId != boardId
  {
    match FindBoardById(st.boards, Some(boardId))
    case None => (Raised(NoneAttribute), st)
    case Some(_) => (Returned(()), st)
  }

  // ---------------------------------------------------------- deletion

  /** `delete_image`: when `userId` uploaded image `imageId`, removes the
      original, then the thumbnail, then the record, and returns `true`;
      otherwise returns `false`. A missing file raises, leaving whatever was
      removed before it removed. */
  function DeleteImage(st: State, userId: nat, imageId: nat, uploadDir: string): (r: (Outcome<bool>, State))
    ensures r.0 == Returned(false) <==> !(imageId in st.images && st.images[imageId].userId == userId)
    ensures r.0 == Returned(false) ==> r.1 == st
    ensures r.0 == Returned(true) ==> r.1 == st.(images := st.images - {imageId},
      files := st.files - {StoredPath(uploadDir, imageId, st.images[imageId].fileExtension), ThumbnailPath(uploadDir, imageId)})
    ensures imageId in st.images && st.images[imageId].userId == userId ==>
      var original := StoredPath(uploadDir, imageId, st.images[imageId].fileExtension);
      && (original !in st.files ==> r == (Raised(FileNotFound(original)), st))
      && (original in st.files && ThumbnailPath(uploadDir, imageId) !in st.files - {original}
          ==> r == (Raised(FileNotFound(ThumbnailPath(uploadDir, imageId))), st.(files := st.files - {original})))
    ensures r.1.boards == st.boards && r.1.grants == st.grants
  {
    if imageId in st.images && st.images[imageId].userId == userId then
      var original := StoredPath(uploadDir, imageId, st.images[imageId].fileExtension);
      var thumbnail := ThumbnailPath(uploadDir, imageId);
      if original !in st.files then (Raised(FileNotFound(original)), st)
      else
        var rest := st.files - {original};
        if thumbnail !in rest then (Raised(FileNotFound(thumbnail)), st.(files := rest))
        else (Returned(true), st.(images := st.images - {imageId}, files := rest - {thumbnail}))
    else (Returned(false), st)
  }

  /** The loop of `delete_board`: `delete_image` on each id, lowest first,
      stopping at the first exception. */
  function Cascade(st: State, userId: nat, ids: set<nat>, uploadDir: string): (r: (Option<Failure>, State))
    ensures r.1.boards == st.boards && r.1.grants == st.grants
    decreases ids
  {
    if ids == {} then (None, st)
    else
      var k := Least(ids);
      var d := DeleteImage(st, userId, k, uploadDir);
      if d.0.Raised? then (Some(d.0.failure), d.1)
      else Cascade(d.1, userId, ids - {k}, uploadDir)
  }

  /** The board rows without the one at index `i`. */
  function RemoveAt(boards: seq<Board>, i: nat): (r: seq<Board>)
    requires i < |boards|
    ensures |r| == |boards| - 1
    ensures forall j :: 0 <= j < i ==> r[j] == boards[j]
    ensures forall j :: i <= j < |r| ==> r[j] == boards[j + 1]
  {
    boards[..i] + boards[i + 1..]
  }

  /** What deleting board `boardId` does to the image rows still filed
      under it: the ORM sets their board to NULL. */
  function Unfile(images: map<nat, Image>, boardId: nat): (r: map<nat, Image>)
    ensures r.Keys == images.Keys
    ensures forall k :: k in r ==> r[k].boardId != Some(boardId)
    ensures forall k :: k in r ==> r[k] == (if images[k].boardId == Some(boardId) then images[k].(boardId := None) else images[k])
  {
    map k | k in images :: if images[k].boardId == Some(boardId) then images[k].(boardId := None) else images[k]
  }

  /** `delete_board`: finds the board as `board_images_for_user` does,
      deletes each of its images through `delete_image` with the owner's id
      (so images other users filed there survive), then deletes the board
      together with its sharing grants. */
  function DeleteBoard(st: State, userId: nat, boardString: string, uploadDir: string): (r: (Outcome<bool>, State))
    ensures FindBoard(st.boards, boardString, userId).None? <==> r.0 == Returned(false)
    ensures r.0 == Returned(false) ==> r.1 == st
  {
    match FindBoard(st.boards, boardString, userId)
    case None => (Returned(false), st)
    case Some(i) =>
      var board := st.boards[i];
      var c := Cascade(st, userId, BoardImageIds(st.images, Some(board.boardId)), uploadDir);
      if c.0.Some? then (Raised(c.0.value), c.1)
      else
        var after := c.1;
        (Returned(true), after.(
          boards := RemoveAt(after.boards, i),
          images := Unfile(after.images, board.boardId),
          grants := set g | g in after.grants && g.boardId != board.boardId))
  }
}

=== FILE: library_proofs.dfy ===
/** Properties that relate several of the library's operations: the files on
    disk track the image rows, an upload followed by its deletion restores
    the library, and deleting a board removes exactly the owner's images.
 */
module LibraryProofs {
  import opened Results
  import opened PyStr
  import opened PyPath
  import opened Naming
  import opened Entities
  import opened Library
  import Checkers

  // ------------------------------------------------- files and records

  /** Every image row is keyed by its own id and carries an extension of the
      shape `splitext` produces. */
  predicate WellKeyed(images: map<nat, Image>) {
    forall k :: k in images ==> images[k].imageId == k && ExtShape(images[k].fileExtension)
  }

  /** The files an image library with these rows keeps: each original and
      each thumbnail. */
  function ImageFiles(images: map<nat, Image>, dir: string): set<string> {
    (set k | k in images :: StoredPath(dir, k, images[k].fileExtension))
    + (set k | k in images :: ThumbnailPath(dir, k))
  }

  /** The library's invariant: the rows are well keyed and the upload
      directory holds exactly their originals and thumbnails. */
  predicate Valid(st: State, dir: string) {
    Tracks(st.images, st.files, dir)
  }

  predicate Tracks(images: map<nat, Image>, files: set<string>, dir: string) {
    WellKeyed(images) && files == ImageFiles(images, dir)
  }

  /** Neither file name of an id without a row is in use. */
  lemma FreshIdHasNoFiles(images: map<nat, Image>, dir: string, id: nat, ext: string)
    requires WellKeyed(images) && id !in images && ExtShape(ext)
    ensures StoredPath(dir, id, ext) !in ImageFiles(images, dir)
    ensures ThumbnailPath(dir, id) !in ImageFiles(images, dir)
  {
    if StoredPath(dir, id, ext) in ImageFiles(images, dir) {
      if k :| k in images && StoredPath(dir, id, ext) == StoredPath(dir, k, images[k].fileExtension) {
        StoredPathInjective(dir, id, ext, k, images[k].fileExtension);
      } else {
        var k :| k in images && StoredPath(dir, id, ext) == ThumbnailPath(dir, k);
        StoredIsNotThumbnail(dir, id, ext, k);
      }
    }
    if ThumbnailPath(dir, id) in ImageFiles(images, dir) {
      if k :| k in images && ThumbnailPath(dir, id) == ThumbnailPath(dir, k) {
        ThumbnailPathInjective(dir, id, k);
      } else {
        var k :| k in images && ThumbnailPath(dir, id) == StoredPath(dir, k, images[k].fileExtension);
        StoredIsNotThumbnail(dir, k, images[k].fileExtension, id);
      }
    }
  }

  /** Dropping a row drops exactly its two files. */
  lemma ImageFilesRemove(images: map<nat, Image>, dir: string, id: nat)
    requires WellKeyed(images) && id in images
    ensures ImageFiles(images - {id}, dir)
      == ImageFiles(images, dir) - {StoredPath(dir, id, images[id].fileExtension), ThumbnailPath(dir, id)}
  {
    var rest := images - {id};
    assert WellKeyed(rest);
    FreshIdHasNoFiles(rest, dir, id, images[id].fileExtension);
    forall f | f in ImageFiles(images, dir)
      ensures f in ImageFiles(rest, dir) || f == StoredPath(dir, id, images[id].fileExtension) || f == ThumbnailPath(dir, id)
    {
      if k :| k in images && f == StoredPath(dir, k, images[k].fileExtension) {
        if k != id {
          assert k in rest;
        }
      } else {
        var k :| k in images && f == ThumbnailPath(dir, k);
        if k != id {
          assert k in rest;
        }
      }
    }
  }

  /** Adding a row with a fresh id adds exactly its two files. */
  lemma ImageFilesAdd(images: map<nat, Image>, dir: string, img: Image)
    requires WellKeyed(images) && img.imageId !in images && ExtShape(img.fileExtension)
    ensures ImageFiles(images[img.imageId := img], dir)
      == ImageFiles(images, dir) + {StoredPath(dir, img.imageId, img.fileExtension), ThumbnailPath(dir, img.imageId)}
  {
    var id := img.imageId;
    var bigger := images[id := img];
    assert WellKeyed(bigger);
    ImageFilesRemove(bigger, dir, id);
    assert bigger - {id} == images;
    assert StoredPath(dir, id, img.fileExtension) in ImageFiles(bigger, dir);
    assert ThumbnailPath(dir, id) in ImageFiles(bigger, dir);
  }

  /** Rows with the same keys and extensions keep the same files. */
  lemma ImageFilesSameShape(a: map<nat, Image>, b: map<nat, Image>, dir: string)
    requires a.Keys == b.Keys
    requires forall k :: k in a ==> a[k].fileExtension == b[k].fileExtension
    ensures ImageFiles(a, dir) == ImageFiles(b, dir)
  {
    assert (set k | k in a :: StoredPath(dir, k, a[k].fileExtension))
      == (set k | k in b :: StoredPath(dir, k, b[k].fileExtension));
  }

  // ------------------------------------------------------------ upload

  /** The recompression step keeps exactly one of the two candidate
      originals, the one whose extension it reports. */
  lemma RecompressKeepsOne(files: set<string>, dir: string, id: nat, ext: string, sourceSize: nat, webpSize: nat)
    requires ExtShape(ext)
    requires StoredPath(dir, id, ext) !in files && StoredPath(dir, id, ".webp") !in files
    ensures var r := Recompress(files + {StoredPath(dir, id, ext)}, dir, id, ext, sourceSize, webpSize);
      r.1 == files + {StoredPath(dir, id, r.0)}
  {
    var saved := files + {StoredPath(dir, id, ext)};
    if ext != ".gif" && ext != ".webp" {
      WebpCandidateOfStored(dir, id, ext);
      CandidatesDiffer(dir, id, ext);
      var w := WebpIfLarger(saved, StoredPath(dir, id, ext), sourceSize, webpSize);
      var r := Recompress(saved, dir, id, ext, sourceSize, webpSize);
      assert r.1 == w.1;
      if w.0 {
        assert r.0 == ".webp";
        assert w.1 == files + {StoredPath(dir, id, ".webp")};
      } else {
        assert r.0 == ext;
        assert w.1 == files + {StoredPath(dir, id, ext)};
      }
    }
  }

  /** The files `Store` leaves, in terms of the recompression step. */
  lemma StoreFiles(st: State, files: set<string>, url: string, io: Io, id: nat, ext: string,
                   notes: Option<string>, userId: nat, boardId: Option<nat>, private: bool, dir: string)
    ensures var rc := Recompress(files, dir, id, ext, io.sourceSize, io.webpSize);
      var s := Store(st, files, url, io, id, ext, notes, userId, boardId, private, dir);
      s.0.fileExtension == rc.0 && s.1.files == rc.1 + {ThumbnailOutputPath(StoredPath(dir, id, rc.0))}
  {
  }

  /** `Store` adds exactly the final original and the thumbnail to the
      files, provided neither candidate original was there already. */
  lemma StoreAddsTwoFiles(st: State, url: string, ext: string, io: Io, notes: Option<string>, userId: nat,
                          boardId: Option<nat>, private: bool, dir: string, id: nat)
    requires PlainDir(dir) && ExtShape(ext) && ext != "."
    requires StoredPath(dir, id, ext) !in st.files && StoredPath(dir, id, ".webp") !in st.files
    ensures var s := Store(st, st.files + {StoredPath(dir, id, ext)}, url, io, id, ext, notes, userId, boardId, private, dir);
      ExtShape(s.0.fileExtension)
      && s.1.files == st.files + {StoredPath(dir, id, s.0.fileExtension), ThumbnailPath(dir, id)}
  {
    var saved := st.files + {StoredPath(dir, id, ext)};
    var rc := Recompress(saved, dir, id, ext, io.sourceSize, io.webpSize);
    StoreFiles(st, saved, url, io, id, ext, notes, userId, boardId, private, dir);
    var fin := rc.0;
    assert fin == ext || fin == ".webp";
    assert ExtShape(fin) && fin != "." by {
      Checkers.AllowedAreExtensions(".webp");
    }
    assert rc.1 == st.files + {StoredPath(dir, id, fin)} by {
      RecompressKeepsOne(st.files, dir, id, ext, io.sourceSize, io.webpSize);
    }
    ThumbnailOutputOfStored(dir, id, fin);
  }

  /** Adding a row with a fresh id together with its two files keeps the
      files in step with the rows. */
  lemma AddKeepsTracking(images: map<nat, Image>, files: set<string>, dir: string, img: Image)
    requires Tracks(images, files, dir)
    requires img.imageId !in images && ExtShape(img.fileExtension)
    ensures Tracks(images[img.imageId := img],
                   files + {StoredPath(dir, img.imageId, img.fileExtension), ThumbnailPath(dir, img.imageId)}, dir)
  {
    ImageFilesAdd(images, dir, img);
  }

  /** After the original is saved, `Commit` leaves the library valid with
      exactly the new image's original and thumbnail added. */
  lemma CommitKeepsValid(st: State, url: string, ext: string, io: Io, notes: Option<string>, userId: nat,
                         boardId: Option<nat>, private: bool, dir: string)
    requires Valid(st, dir) && PlainDir(dir)
    requires ExtShape(ext) && ext != "."
    ensures var id := NextImageId(st.images);
      var r := Commit(st, st.files + {StoredPath(dir, id, ext)}, url, io, id, ext, notes, userId, boardId, private, dir);
      Valid(r.1, dir)
      && r.1.images == st.images[id := r.1.images[id]]
      && r.1.files == st.files + {StoredPath(dir, id, r.1.images[id].fileExtension), ThumbnailPath(dir, id)}
  {
    var id := NextImageId(st.images);
    var saved := st.files + {StoredPath(dir, id, ext)};
    var s := Store(st, saved, url, io, id, ext, notes, userId, boardId, private, dir);
    var r := Commit(st, saved, url, io, id, ext, notes, userId, boardId, private, dir);
    var img := s.0;
    assert r.1.images == st.images[id := img] && r.1.files == s.1.files;
    assert ExtShape(img.fileExtension)
      && s.1.files == st.files + {StoredPath(dir, id, img.fileExtension), ThumbnailPath(dir, id)} by {
      assert StoredPath(dir, id, ext) !in st.files && StoredPath(dir, id, ".webp") !in st.files by {
        FreshIdHasNoFiles(st.images, dir, id, ext);
        Checkers.AllowedAreExtensions(".webp");
        FreshIdHasNoFiles(st.images, dir, id, ".webp");
      }
      StoreAddsTwoFiles(st, url, ext, io, notes, userId, boardId, private, dir, id);
    }
    AddKeepsTracking(st.images, st.files, dir, img);
  }

  /** The saved original of an upload is at `{upload_dir}/{id}{ext}` whichever
      branch saved it. */
  lemma SavedAtStoredPath(source: Source, dir: string, id: nat, ext: string)
    requires PlainDir(dir)
    ensures SavedPath(source, dir, id, ext) == StoredPath(dir, id, ext)
  {
    if source.FromFile? {
      JoinIsStoredPath(dir, id, ext);
    }
  }

  /** An upload either stops before saving anything, with the library as
      it was, or is `Commit` applied to the saved original. */
  lemma UploadCases(st: State, source: Source, notes: Option<string>, userId: nat,
                    boardId: Option<nat>, private: bool, dir: string, io: Io)
    ensures var id := NextImageId(st.images);
      var ext := UploadExtension(source, io);
      var r := UploadImage(st, source, notes, userId, boardId, private, dir, io);
      r.1 == st
      || r == Commit(st, st.files + {SavedPath(source, dir, id, ext)}, SourceUrl(source), io, id, ext,
                     notes, userId, boardId, private, dir)
  {
  }

  /** A URL upload the checker accepts is the fetch of lines 83-95 followed
      by the recording step on the fetched original, in the source's order. */
  lemma AcceptedUrlFetches(st: State, u: string, notes: Option<string>, userId: nat,
                           boardId: Option<nat>, private: bool, dir: string, io: Io)
    requires Checkers.UploadUrlChecker(u)
    ensures var id := NextImageId(st.images);
      var ext := UploadExtension(FromUrl(u), io);
      UploadImage(st, FromUrl(u), notes, userId, boardId, private, dir, io)
      == Fetch(st, io, Commit(st, st.files + {StoredPath(dir, id, ext)}, u, io, id, ext,
                              notes, userId, boardId, private, dir))
  {
  }

  /** An upload keeps the library valid, whatever it returns; when it records
      an image it adds exactly that image's original and thumbnail, and so
      does an upload that raises in the board thumbnail step after recording
      its image. An
      extension that is a bare dot is excluded: `secure_filename` strips
      trailing dots, and with one the thumbnail would land at `{id}..webp`. */
  lemma UploadKeepsValid(st: State, source: Source, notes: Option<string>, userId: nat,
                         boardId: Option<nat>, private: bool, dir: string, io: Io)
    requires Valid(st, dir) && PlainDir(dir)
    requires UploadExtension(source, io) != "."
    ensures var r := UploadImage(st, source, notes, userId, boardId, private, dir, io);
      Valid(r.1, dir)
      && (r.0.Returned? && r.0.value.Some? ==>
            var img := r.0.value.value;
            r.1.files == st.files + {StoredPath(dir, img.imageId, img.fileExtension), ThumbnailPath(dir, img.imageId)})
      && (r.0 == Raised(NoneAttribute) ==>
            var id := NextImageId(st.images);
            id in r.1.images
            && r.1.files == st.files + {StoredPath(dir, id, r.1.images[id].fileExtension), ThumbnailPath(dir, id)})
  {
    var id := NextImageId(st.images);
    var ext := UploadExtension(source, io);
    UploadCases(st, source, notes, userId, boardId, private, dir, io);
    SavedAtStoredPath(source, dir, id, ext);
    CommitKeepsValid(st, SourceUrl(source), ext, io, notes, userId, boardId, private, dir);
  }

  /** The board-thumbnail rule right after a row with a fresh id is
      inserted: the board gets the new image as its thumbnail exactly when it
      had no image before, and it raises exactly when the board had no image
      and its key names no board. */
  lemma ThumbnailBoardRule(before: map<nat, Image>, st: State, image: Image)
    requires image.imageId !in before && st.images == before[image.imageId := image]
    ensures var r := ThumbnailBoard(st, image);
      && (r.0.Returned? ==>
        if BoardImageIds(before, image.boardId) == {} then
          exists i :: 0 <= i < |st.boards| && Some(st.boards[i].boardId) == image.boardId
            && r.1.boards == st.boards[i := st.boards[i].(thumbnail := Some(StoredName(image.imageId, image.fileExtension)))]
        else r.1.boards == st.boards)
      && (r.0 == Raised(NoneAttribute) <==>
          BoardImageIds(before, image.boardId) == {}
          && forall i :: 0 <= i < |st.boards| ==> Some(st.boards[i].boardId) != image.boardId)
  {
    CountAfterInsert(before, image);
  }

  /** The board-thumbnail rule: a recorded upload makes the new image its
      board's thumbnail exactly when the board had no image before, and
      otherwise changes no board. An upload whose original is saved returns
      its image exactly when the board already had an image or its key
      names a board. */
  lemma UploadBoardThumbnail(st: State, source: Source, notes: Option<string>, userId: nat,
                             boardId: Option<nat>, private: bool, dir: string, io: Io)
    ensures var r := UploadImage(st, source, notes, userId, boardId, private, dir, io);
      r.0.Returned? && r.0.value.Some? ==>
        var img := r.0.value.value;
        if BoardImageIds(st.images, boardId) == {} then
          exists i :: 0 <= i < |st.boards| && Some(st.boards[i].boardId) == boardId
            && r.1.boards == st.boards[i := st.boards[i].(thumbnail := Some(StoredName(img.imageId, img.fileExtension)))]
        else r.1.boards == st.boards
    ensures var r := UploadImage(st, source, notes, userId, boardId, private, dir, io);
      SavesOriginal(source, io) ==>
        (r.0.Returned? && r.0.value.Some? <==>
           BoardImageIds(st.images, boardId) != {}
           || exists i :: 0 <= i < |st.boards| && Some(st.boards[i].boardId) == boardId)
  {
    var id := NextImageId(st.images);
    var ext := UploadExtension(source, io);
    UploadCases(st, source, notes, userId, boardId, private, dir, io);
    var s := Store(st, st.files + {SavedPath(source, dir, id, ext)}, SourceUrl(source), io, id, ext,
                   notes, userId, boardId, private, dir);
    ThumbnailBoardRule(st.images, s.1, s.0);
  }

  /** A URL whose extension is refused changes nothing and fetches nothing:
      the outcome is the same whatever the network would have answered. */
  lemma RefusedUrlIgnoresNetwork(st: State, u: string, notes: Option<string>, userId: nat,
                                 boardId: Option<nat>, private: bool, dir: string, io1: Io, io2: Io)
    requires !Checkers.UploadUrlChecker(u)
    ensures UploadImage(st, FromUrl(u), notes, userId, boardId, private, dir, io1)
         == UploadImage(st, FromUrl(u), notes, userId, boardId, private, dir, io2)
         == (Returned(None), st)
  {
  }

  /** The library's invalid-type upload, `https://pt.test/invalid.image`,
      returns `False` and changes nothing. */
  lemma InvalidTypeUploadRefused(st: State, u: string, scheme: string, host: string, name: string,
                                 notes: Option<string>, userId: nat, boardId: Option<nat>, private: bool,
                                 dir: string, io: Io)
    requires scheme == "https" && host == "pt.test" && name == "invalid.image"
    requires u == scheme + "://" + host + "/" + name
    ensures UploadImage(st, FromUrl(u), notes, userId, boardId, private, dir, io) == (Returned(None), st)
  {
    Checkers.InvalidTypeUrlRejected(u, scheme, host, name);
  }

  /** The library's not-found upload, `https://upload.wikimedia.org/Manul1a.jpg`,
      passes the URL checker; the server answers 404, `urlopen` raises
      `HTTPError`, and nothing changes. The library's test expects `False`. */
  lemma NotFoundUploadRaises(st: State, u: string, scheme: string, host: string, name: string,
                             notes: Option<string>, userId: nat, boardId: Option<nat>, private: bool,
                             dir: string, io: Io)
    requires scheme == "https" && host == "upload.wikimedia.org" && name == "Manul1a.jpg"
    requires u == scheme + "://" + host + "/" + name
    requires io.fetch == Response(404)
    ensures UploadImage(st, FromUrl(u), notes, userId, boardId, private, dir, io) == (Raised(HttpError), st)
  {
    Checkers.NotFoundUrlAccepted(u, scheme, host, name);
  }

  /** An uploaded file is never refused for its extension: once the save
      succeeds the upload records the image (or raises after recording it),
      even for a name such as `invalid.file` that `uploaded_file_checker`
      refuses. */
  lemma FileUploadUnchecked(st: State, filename: string, notes: Option<string>, userId: nat,
                            boardId: Option<nat>, private: bool, dir: string, io: Io)
    requires io.saveOk
    ensures var r := UploadImage(st, FromFile(filename), notes, userId, boardId, private, dir, io);
      r.0 == Raised(NoneAttribute) || (r.0.Returned? && r.0.value.Some?)
  {
  }

  /** `invalid.file` is refused by the file checker, yet recorded by a file
      upload whose save succeeds. */
  lemma InvalidFileStillRecorded(st: State, name: string, notes: Option<string>, userId: nat,
                                 boardId: Option<nat>, private: bool, dir: string, io: Io)
    requires name == "invalid.file" && io.saveOk
    ensures !Checkers.UploadedFileChecker(name)
    ensures UploadImage(st, FromFile(name), notes, userId, boardId, private, dir, io).0 != Returned(None)
  {
    Checkers.InvalidFileRejected(name);
    FileUploadUnchecked(st, name, notes, userId, boardId, private, dir, io);
  }

  // ----------------------------------------------------------- delete

  /** In a valid library, `delete_image` on an image the user uploaded
      succeeds, drops the row and its two files, and keeps the library valid. */
  lemma DeleteOwnImage(st: State, userId: nat, id: nat, dir: string)
    requires Valid(st, dir)
    requires id in st.images && st.images[id].userId == userId
    ensures var r := DeleteImage(st, userId, id, dir);
      r.0 == Returned(true) && Valid(r.1, dir) && r.1.images == st.images - {id}
      && r.1.boards == st.boards && r.1.grants == st.grants
  {
    var ext := st.images[id].fileExtension;
    assert StoredPath(dir, id, ext) in st.files;
    assert ThumbnailPath(dir, id) in st.files;
    assert StoredPath(dir, id, ext) != ThumbnailPath(dir, id) by {
      StoredIsNotThumbnail(dir, id, ext, id);
    }
    ImageFilesRemove(st.images, dir, id);
    assert WellKeyed(st.images - {id});
  }

  /** Deleting, as its uploader, an image just added with a fresh id and
      its two files restores the rows, the files and the grants. */
  lemma DeleteRecorded(st: State, after: State, img: Image, dir: string)
    requires Valid(st, dir) && Valid(after, dir)
    requires img.imageId !in st.images && after.images == st.images[img.imageId := img]
    requires after.files == st.files + {StoredPath(dir, img.imageId, img.fileExtension), ThumbnailPath(dir, img.imageId)}
    ensures var d := DeleteImage(after, img.userId, img.imageId, dir);
      d.0 == Returned(true) && d.1.images == st.images && d.1.files == st.files
      && d.1.grants == after.grants && d.1.boards == after.boards
  {
    var id := img.imageId;
    var two := {StoredPath(dir, id, img.fileExtension), ThumbnailPath(dir, id)};
    DeleteOwnImage(after, img.userId, id, dir);
    assert after.images - {id} == st.images;
    assert st.files !! two by {
      FreshIdHasNoFiles(st.images, dir, id, img.fileExtension);
    }
  }

  /** Uploading an image and then deleting it as its uploader gives back the
      library's images, files and grants (the board that took the image as
      its thumbnail keeps naming it). */
  lemma UploadThenDelete(st: State, source: Source, notes: Option<string>, userId: nat,
                         boardId: Option<nat>, private: bool, dir: string, io: Io)
    requires Valid(st, dir) && PlainDir(dir)
    requires UploadExtension(source, io) != "."
    ensures var r := UploadImage(st, source, notes, userId, boardId, private, dir, io);
      r.0.Returned? && r.0.value.Some? ==>
        var d := DeleteImage(r.1, userId, r.0.value.value.imageId, dir);
        d.0 == Returned(true)
        && d.1.images == st.images && d.1.files == st.files && d.1.grants == st.grants
  {
    var r := UploadImage(st, source, notes, userId, boardId, private, dir, io);
    if r.0.Returned? && r.0.value.Some? {
      UploadKeepsValid(st, source, notes, userId, boardId, private, dir, io);
      DeleteRecorded(st, r.1, r.0.value.value, dir);
    }
  }

  // ------------------------------------------------------------ boards

  /** The rows `delete_board`'s loop leaves: those outside `ids`, and those
      inside that another user uploaded. */
  function Survivors(images: map<nat, Image>, ids: set<nat>, userId: nat): map<nat, Image> {
    map k | k in images && !(k in ids && images[k].userId == userId) :: images[k]
  }

  /** In a valid library the loop of `delete_board` raises nothing, removes
      the user's images among `ids` and keeps the library valid. */
  lemma {:induction false} CascadeEffect(st: State, userId: nat, ids: set<nat>, dir: string)
    requires Valid(st, dir)
    ensures var c := Cascade(st, userId, ids, dir);
      c.0 == None && Valid(c.1, dir) && c.1.images == Survivors(st.images, ids, userId)
    decreases ids
  {
    if ids == {} {
      assert Survivors(st.images, ids, userId) == st.images;
    } else {
      var k := Least(ids);
      var d := DeleteImage(st, userId, k, dir);
      var next := if k in st.images && st.images[k].userId == userId then st.images - {k} else st.images;
      if k in st.images && st.images[k].userId == userId {
        DeleteOwnImage(st, userId, k, dir);
      }
      assert d.0.Returned? && Valid(d.1, dir) && d.1.images == next;
      CascadeEffect(d.1, userId, ids - {k}, dir);
      assert Survivors(next, ids - {k}, userId) == Survivors(st.images, ids, userId);
    }
  }

  /** In a valid library, `delete_board` on a board the user owns returns
      true, removes that board and its grants, deletes exactly the images
      in it that the user uploaded, unfiles the ones other users put there,
      and keeps the library valid. */
  lemma DeleteBoardEffect(st: State, userId: nat, boardString: string, dir: string)
    requires Valid(st, dir)
    requires FindBoard(st.boards, boardString, userId).Some?
    ensures var i := FindBoard(st.boards, boardString, userId).value;
      var b := st.boards[i];
      var r := DeleteBoard(st, userId, boardString, dir);
      r.0 == Returned(true) && Valid(r.1, dir)
      && r.1.boards == RemoveAt(st.boards, i)
      && (forall g :: g in r.1.grants <==> g in st.grants && g.boardId != b.boardId)
      && (forall k :: k in r.1.images <==>
            k in st.images && !(st.images[k].boardId == Some(b.boardId) && st.images[k].userId == userId))
      && (forall k :: k in r.1.images ==> r.1.images[k].boardId != Some(b.boardId))
      && (forall k :: k in r.1.images ==>
            r.1.images[k] == (if st.images[k].boardId == Some(b.boardId) then st.images[k].(boardId := None) else st.images[k]))
  {
    var i := FindBoard(st.boards, boardString, userId).value;
    var b := st.boards[i];
    var ids := BoardImageIds(st.images, Some(b.boardId));
    CascadeEffect(st, userId, ids, dir);
    var c := Cascade(st, userId, ids, dir);
    var after := Unfile(c.1.images, b.boardId);
    ImageFilesSameShape(c.1.images, after, dir);
    assert WellKeyed(after);
  }

  /** When the user has no other board of that name, the board's images are
      no longer listed after `delete_board`. */
  lemma DeleteBoardThenNoImages(st: State, userId: nat, boardString: string, dir: string)
    requires Valid(st, dir)
    requires FindBoard(st.boards, boardString, userId).Some?
    requires forall j :: 0 <= j < |st.boards| && j != FindBoard(st.boards, boardString, userId).value ==>
      !(st.boards[j].name == boardString && st.boards[j].userId == userId)
    ensures var r := DeleteBoard(st, userId, boardString, dir);
      BoardImagesForUser(r.1, userId, boardString) == map[]
  {
    DeleteBoardEffect(st, userId, boardString, dir);
  }

  /** The first match in a board list with one more board at the end. */
  lemma {:induction false} FirstMatchAppend(boards: seq<Board>, b: Board, p: Board -> bool)
    ensures FirstMatch(boards + [b], p) ==
      if FirstMatch(boards, p).Some? then FirstMatch(boards, p)
      else if p(b) then Some(|boards|) else None
  {
    if |boards| > 0 {
      assert (boards + [b])[0] == boards[0];
      assert (boards + [b])[1..] == boards[1..] + [b];
      FirstMatchAppend(boards[1..], b, p);
    } else {
      assert boards + [b] == [b];
    }
  }

  /** `create_board` does not refuse a second board with the same name and
      owner, but that board is never the one the name finds: lookups by name
      reach it only when it is the first of its name. */
  lemma CreateBoardLookup(st: State, name: string, icon: string, hexCode: string, userId: nat)
    ensures var r := CreateBoard(st, name, icon, hexCode, userId);
      FindBoard(r.1.boards, name, userId)
        == if FindBoard(st.boards, name, userId).Some? then FindBoard(st.boards, name, userId) else Some(|st.boards|)
  {
    var r := CreateBoard(st, name, icon, hexCode, userId);
    FirstMatchAppend(st.boards, r.0, (b: Board) => b.name == name && b.userId == userId);
  }

  /** A duplicate board leaves every listing by that name as it was. */
  lemma DuplicateBoardShadowed(st: State, name: string, icon: string, hexCode: string, userId: nat)
    requires FindBoard(st.boards, name, userId).Some?
    ensures var r := CreateBoard(st, name, icon, hexCode, userId);
      BoardImagesForUser(r.1, userId, name) == BoardImagesForUser(st, userId, name)
  {
    CreateBoardLookup(st, name, icon, hexCode, userId);
    var r := CreateBoard(st, name, icon, hexCode, userId);
    var i := FindBoard(st.boards, name, userId).value;
    assert r.1.boards[i] == st.boards[i];
  }

  /** Ids are fresh only against live rows: once the image with the largest
      id is deleted, the next upload is given an id no larger than it. */
  lemma IdReuse(images: map<nat, Image>, top: nat)
    requires top in images && forall k :: k in images ==> k <= top
    ensures NextImageId(images - {top}) <= NextImageId(images)
    ensures top >= 1 ==> NextImageId(images - {top}) <= top
  {
  }
}

=== FILE: naming.dfy ===
/** Where the image library keeps its files. The numeric image id is the only
    identity a stored file has: the original lives at `{upload_dir}/{id}{ext}`
    and its thumbnail at `{upload_dir}/thumbnails/{id}.webp`. The pipeline
    reaches those names by three different routes (an f-string, `os.path.join`,
    and the path surgery inside `webp_if_larger` and `thumbnail_generator`);
    the lemmas here show that the routes agree.
 */
module Naming {
  import opened PyStr
  import opened PyPath

  /** `{id}{ext}`: the file name of a stored original, also what a board's
      `thumbnail` column holds. */
  function StoredName(id: nat, ext: string): string {
    Decimal(id) + ext
  }

  /** `{upload_dir}/{id}{ext}`. */
  function StoredPath(dir: string, id: nat, ext: string): string {
    dir + "/" + StoredName(id, ext)
  }

  /** `thumbnails/{id}.webp`: the thumbnail an Image record names. */
  function RecordThumbnail(id: nat): string {
    "thumbnails/" + Decimal(id) + ".webp"
  }

  /** `{upload_dir}/thumbnails/{id}.webp`: the thumbnail file `delete_image` removes. */
  function ThumbnailPath(dir: string, id: nat): string {
    dir + "/" + RecordThumbnail(id)
  }

  /** Where `thumbnail_generator` writes the thumbnail of the image at `imagePath`. */
  function ThumbnailOutputPath(imagePath: string): string {
    Head(imagePath) + "/thumbnails/" + Stem(PathName(imagePath)) + ".webp"
  }

  /** Where `webp_if_larger` writes the re-encoded copy of the image at `imagePath`. */
  function WebpCandidatePath(imagePath: string): string {
    Splitext(imagePath).0 + ".webp"
  }

  /** The re-encoded copy of any image is a `.webp` file in the image's own
      directory. */
  lemma WebpCandidateBeside(imagePath: string)
    ensures Head(WebpCandidatePath(imagePath)) == Head(imagePath)
    ensures var r := WebpCandidatePath(imagePath); |r| >= 5 && r[|r| - 5..] == ".webp"
  {
    SplitextRootPrefix(imagePath);
    HeadWithSuffix(Splitext(imagePath).0, imagePath, ".webp");
  }

  /** An upload directory written without a trailing slash, as the library's
      callers write it (`uploads`, `test_uploads`). */
  predicate PlainDir(dir: string) {
    |dir| > 0 && dir[|dir| - 1] != '/'
  }

  /** A stored name has no slash, and its last dot is the extension's. */
  lemma StoredNameShape(id: nat, ext: string)
    requires ExtShape(ext)
    ensures NoSlash(StoredName(id, ext))
    ensures RFind(StoredName(id, ext), '.') == if ext == "" then -1 else |Decimal(id)|
    ensures RFind(StoredName(id, ext), '/') == -1
  {
    var d := Decimal(id);
    var n := d + ext;
    assert forall j :: 0 <= j < |d| ==> n[j] == d[j] && IsDigit(d[j]);
    assert forall j :: |d| < j < |n| ==> n[j] == ext[j - |d|];
    if ext != "" {
      assert n[|d|] == '.';
    }
  }

  /** The last slash of a stored path is the one after the directory. */
  lemma StoredPathSlash(dir: string, id: nat, ext: string)
    requires ExtShape(ext)
    ensures RFind(StoredPath(dir, id, ext), '/') == |dir|
    ensures RFind(StoredPath(dir, id, ext), '.') ==
      if ext == "" then RFind(dir + "/", '.') else |dir| + 1 + |Decimal(id)|
  {
    StoredNameShape(id, ext);
    RFindAppend(dir + "/", StoredName(id, ext), '/');
    RFindAppend(dir + "/", StoredName(id, ext), '.');
    assert StoredPath(dir, id, ext) == (dir + "/") + StoredName(id, ext);
  }

  /** `os.path.split` gives back the upload directory of a stored original. */
  lemma HeadOfStored(dir: string, id: nat, ext: string)
    requires PlainDir(dir) && ExtShape(ext)
    ensures Head(StoredPath(dir, id, ext)) == dir
  {
    var p := StoredPath(dir, id, ext);
    StoredPathSlash(dir, id, ext);
    var h := dir + "/";
    assert p[..|dir| + 1] == h;
    assert h[..|dir|] == dir;
    assert !AllSlashes(h) by {
      assert h[|dir| - 1] != '/';
    }
    assert RStripSlashes(h) == RStripSlashes(dir);
    assert RStripSlashes(dir) == dir;
  }

  /** `os.path.join(upload_dir, "{id}{ext}")` names the same path as the f-string. */
  lemma JoinIsStoredPath(dir: string, id: nat, ext: string)
    requires PlainDir(dir)
    ensures Join(dir, StoredName(id, ext)) == StoredPath(dir, id, ext)
  {
    assert StoredName(id, ext)[0] == Decimal(id)[0];
  }

  /** The re-encoded copy of a stored original is `{upload_dir}/{id}.webp`. */
  lemma WebpCandidateOfStored(dir: string, id: nat, ext: string)
    requires ExtShape(ext)
    ensures WebpCandidatePath(StoredPath(dir, id, ext)) == StoredPath(dir, id, ".webp")
  {
    var p := StoredPath(dir, id, ext);
    var d := Decimal(id);
    StoredPathSlash(dir, id, ext);
    if ext == "" {
      assert (dir + "/")[|dir|] == '/';
      assert p == dir + "/" + d;
    } else {
      var dot := |dir| + 1 + |d|;
      assert p[|dir| + 1..dot] == d;
      assert d[0] != '.';
      assert p[..dot] == dir + "/" + d;
    }
  }

  /** `pathlib` sees the stored name as the last component of a stored path. */
  lemma PathNameOfStored(dir: string, id: nat, ext: string)
    requires ExtShape(ext)
    ensures PathName(StoredPath(dir, id, ext)) == StoredName(id, ext)
  {
    var p := StoredPath(dir, id, ext);
    var n := StoredName(id, ext);
    StoredPathSlash(dir, id, ext);
    assert p[|dir| + 1..] == n;
    assert n[0] == Decimal(id)[0];
    assert n != "" && n != ".";
  }

  /** The stem of a stored name is the decimal id, unless the extension is a
      bare dot. */
  lemma StemOfStoredName(id: nat, ext: string)
    requires ExtShape(ext)
    ensures Stem(StoredName(id, ext)) == if ext == "." then StoredName(id, ext) else Decimal(id)
  {
    var n := StoredName(id, ext);
    var d := Decimal(id);
    StoredNameShape(id, ext);
    if ext != "" {
      assert n[..|d|] == d;
    }
  }

  /** The thumbnail output path, given the two parts it is made from. */
  lemma ThumbnailOutputFromParts(p: string, dir: string, stem: string)
    requires Head(p) == dir && Stem(PathName(p)) == stem
    ensures ThumbnailOutputPath(p) == dir + "/" + ("thumbnails/" + stem + ".webp")
  {
    assert "/thumbnails/" == "/" + "thumbnails/";
    Regroup(dir, "/", "thumbnails/", stem, ".webp");
  }

  /** Concatenation regrouped. */
  lemma Regroup(a: string, x: string, y: string, s: string, w: string)
    ensures a + (x + y) + s + w == a + x + (y + s + w)
  {
  }

  /** `thumbnail_generator` writes the thumbnail of a stored original exactly
      where the record says it is, unless the extension is a bare dot (which
      pathlib does not count as a suffix). */
  lemma ThumbnailOutputOfStored(dir: string, id: nat, ext: string)
    requires PlainDir(dir) && ExtShape(ext) && ext != "."
    ensures ThumbnailOutputPath(StoredPath(dir, id, ext)) == ThumbnailPath(dir, id)
  {
    var p := StoredPath(dir, id, ext);
    var d := Decimal(id);
    assert Head(p) == dir by {
      HeadOfStored(dir, id, ext);
    }
    assert Stem(PathName(p)) == d by {
      PathNameOfStored(dir, id, ext);
      StemOfStoredName(id, ext);
    }
    ThumbnailOutputFromParts(p, dir, d);
  }

  /** With a bare-dot extension the thumbnail lands at `{id}..webp`, not where
      the record points. */
  lemma ThumbnailOutputOfBareDot(dir: string, id: nat)
    requires PlainDir(dir)
    ensures ThumbnailOutputPath(StoredPath(dir, id, ".")) == dir + "/thumbnails/" + Decimal(id) + "..webp"
    ensures ThumbnailOutputPath(StoredPath(dir, id, ".")) != ThumbnailPath(dir, id)
  {
    var p := StoredPath(dir, id, ".");
    assert Head(p) == dir by {
      HeadOfStored(dir, id, ".");
    }
    assert Stem(PathName(p)) == Decimal(id) + "." by {
      PathNameOfStored(dir, id, ".");
      StemOfStoredName(id, ".");
    }
    var out := dir + "/thumbnails/" + Decimal(id) + "..webp";
    assert |out| == |ThumbnailPath(dir, id)| + 1;
  }

  /** A stored path determines its id and its extension. */
  lemma StoredPathInjective(dir: string, a: nat, e1: string, b: nat, e2: string)
    requires ExtShape(e1) && ExtShape(e2)
    requires StoredPath(dir, a, e1) == StoredPath(dir, b, e2)
    ensures a == b && e1 == e2
  {
    var p := StoredPath(dir, a, e1);
    assert p[|dir| + 1..] == Decimal(a) + e1;
    assert StoredPath(dir, b, e2)[|dir| + 1..] == Decimal(b) + e2;
    TakeDigitsPrefix(Decimal(a), e1);
    TakeDigitsPrefix(Decimal(b), e2);
    DecimalInjective(a, b);
    assert e1 == (Decimal(a) + e1)[|Decimal(a)|..];
  }

  /** A thumbnail path determines its id. */
  lemma ThumbnailPathInjective(dir: string, a: nat, b: nat)
    requires ThumbnailPath(dir, a) == ThumbnailPath(dir, b)
    ensures a == b
  {
    var k := |dir| + 1 + |"thumbnails/"|;
    assert ThumbnailPath(dir, a)[k..] == Decimal(a) + ".webp";
    assert ThumbnailPath(dir, b)[k..] == Decimal(b) + ".webp";
    TakeDigitsPrefix(Decimal(a), ".webp");
    TakeDigitsPrefix(Decimal(b), ".webp");
    DecimalInjective(a, b);
  }

  /** No stored original is ever a thumbnail. */
  lemma StoredIsNotThumbnail(dir: string, a: nat, e: string, b: nat)
    ensures StoredPath(dir, a, e) != ThumbnailPath(dir, b)
  {
    var k := |dir| + 1;
    assert StoredPath(dir, a, e)[k] == Decimal(a)[0];
    assert ThumbnailPath(dir, b)[k] == 't';
  }

  /** The two candidates `webp_if_larger` chooses between are different files. */
  lemma CandidatesDiffer(dir: string, id: nat, ext: string)
    requires ExtShape(ext) && ext != ".webp"
    ensures StoredPath(dir, id, ext) != StoredPath(dir, id, ".webp")
  {
    if StoredPath(dir, id, ext) == StoredPath(dir, id, ".webp") {
      StoredPathInjective(dir, id, ext, id, ".webp");
    }
  }
}

=== FILE: pypath.dfy ===
/** The path and URL helpers of Python's standard library that the image
    library calls, on POSIX: `os.path.basename`, `os.path.splitext`,
    `os.path.join` (two arguments), the head of `os.path.split`, the `name`
    and `stem` of a `pathlib.Path`, and the `path` component of
    `urllib.parse.urlparse`.
 */
module PyPath {
  import opened PyStr

  /** What `os.path.splitext` can return as an extension: nothing, or a dot
      followed by characters that are neither dots nor slashes. */
  predicate ExtShape(e: string) {
    e == "" || (e[0] == '.' && forall i :: 1 <= i < |e| ==> e[i] != '.' && e[i] != '/')
  }

  predicate NoSlash(s: string) {
    forall i :: 0 <= i < |s| ==> s[i] != '/'
  }

  /** `os.path.basename(p)`: the text after the last slash. */
  function Basename(p: string): (r: string)
    ensures NoSlash(r)
    ensures |r| <= |p| && r == p[|p| - |r|..]
    ensures |r| < |p| ==> p[|p| - |r| - 1] == '/'
  {
    p[RFind(p, '/') + 1..]
  }

  /** `os.path.splitext(p)`: the extension runs from the last dot of the last
      path component, provided that dot is preceded (within the component) by
      something other than dots; otherwise the extension is empty. */
  function Splitext(p: string): (r: (string, string))
    ensures r.0 + r.1 == p
    ensures ExtShape(r.1)
  {
    var sep := RFind(p, '/');
    var dot := RFind(p, '.');
    if dot > sep && HasNonDot(p[sep + 1..dot]) then
      LastDotStartsExt(p, sep, dot);
      (p[..dot], p[dot..])
    else (p, "")
  }

  /** The text from the last dot, when no slash follows that dot, has the
      shape of an extension. */
  lemma LastDotStartsExt(p: string, sep: int, dot: int)
    requires -1 <= sep < dot < |p| && p[dot] == '.'
    requires forall j :: dot < j < |p| ==> p[j] != '.'
    requires forall j :: sep < j < |p| ==> p[j] != '/'
    ensures ExtShape(p[dot..]) && p[..dot] + p[dot..] == p
  {
    var e := p[dot..];
    forall i | 1 <= i < |e| ensures e[i] != '.' && e[i] != '/' {
      assert e[i] == p[dot + i];
    }
  }

  /** Lowering keeps the shape of an extension. */
  lemma LowerKeepsExtShape(e: string)
    requires ExtShape(e)
    ensures ExtShape(Lower(e))
  {
  }

  /** `os.path.splitext(p)[1]`. */
  function Ext(p: string): string {
    Splitext(p).1
  }

  /** `os.path.join(a, b)`. */
  function Join(a: string, b: string): string {
    if |b| > 0 && b[0] == '/' then b
    else if |a| == 0 || a[|a| - 1] == '/' then a + b
    else a + "/" + b
  }

  predicate AllSlashes(s: string) {
    forall i :: 0 <= i < |s| ==> s[i] == '/'
  }

  /** `s.rstrip('/')`. */
  function RStripSlashes(s: string): string {
    if |s| > 0 && s[|s| - 1] == '/' then RStripSlashes(s[..|s| - 1]) else s
  }

  /** `os.path.split(p)[0]`: everything up to the last slash, with trailing
      slashes removed unless it consists of slashes only. */
  function Head(p: string): string {
    var h := p[..RFind(p, '/') + 1];
    if |h| > 0 && !AllSlashes(h) then RStripSlashes(h) else h
  }

  /** `pathlib.Path(p).name`: the last component that is neither empty nor `.`. */
  function PathName(p: string): string
    decreases |p|
  {
    var k := RFind(p, '/');
    var last := p[k + 1..];
    if last == "" || last == "." then
      (if k < 0 then "" else PathName(p[..k]))
    else last
  }

  /** `pathlib.PurePath.stem` for a name: the name up to its last dot, when
      that dot is neither the first nor the last character. */
  function Stem(name: string): string {
    var i := RFind(name, '.');
    if 0 < i < |name| - 1 then name[..i] else name
  }

  predicate IsAsciiLetter(c: char) {
    'a' <= c <= 'z' || 'A' <= c <= 'Z'
  }

  /** The characters urllib accepts in a scheme. */
  predicate IsSchemeChar(c: char) {
    IsAsciiLetter(c) || IsDigit(c) || c == '+' || c == '-' || c == '.'
  }

  /** The text before the first colon is a scheme: a letter, then letters,
      digits, `+`, `-` or `.`. */
  predicate HasScheme(v: string) {
    var i := FindAny(v, {':'});
    0 < i < |v| && IsAsciiLetter(v[0]) && SchemeChars(v[..i])
  }

  /** Every character of `s` may appear in a scheme. */
  predicate SchemeChars(s: string) {
    |s| == 0 || (IsSchemeChar(s[0]) && SchemeChars(s[1..]))
  }

  lemma {:induction false} SchemeCharsOf(s: string)
    requires forall j :: 0 <= j < |s| ==> IsSchemeChar(s[j])
    ensures SchemeChars(s)
  {
    if |s| > 0 {
      assert forall j :: 0 <= j < |s[1..]| ==> s[1..][j] == s[j + 1];
      SchemeCharsOf(s[1..]);
    }
  }

  /** Drops a leading `scheme:`. */
  function StripScheme(v: string): string {
    if HasScheme(v) then v[FindAny(v, {':'}) + 1..] else v
  }

  /** The scheme `urlsplit` reports, lowered; empty when there is none. */
  function Scheme(v: string): string {
    if HasScheme(v) then Lower(v[..FindAny(v, {':'})]) else ""
  }

  /** urllib's `uses_params`: the schemes whose last path segment may carry
      `;params`. The empty scheme is one of them. */
  const ParamSchemes: set<string> :=
    {"", "ftp", "hdl", "prospero", "http", "imap", "https", "shttp", "rtsp", "rtsps", "rtspu",
     "sip", "sips", "mms", "sftp", "tel"}

  /** `_splitparams(p)[0]`: the path up to the first `;` after its last
      slash, or all of it when that segment has none. */
  function SplitParams(p: string): (r: string)
    ensures |r| <= |p| && r == p[..|r|]
  {
    p[..FindFrom(p, RFind(p, '/') + 1, ';')]
  }

  /** What `_splitparams` keeps: everything up to the last slash, then the
      last segment up to its first `;`, which is where the path ends when
      there is one. */
  lemma SplitParamsCut(p: string)
    ensures RFind(p, '/') < |SplitParams(p)|
    ensures forall j :: RFind(p, '/') < j < |SplitParams(p)| ==> p[j] != ';'
    ensures |SplitParams(p)| < |p| ==> p[|SplitParams(p)|] == ';'
  {
    var e := FindFrom(p, RFind(p, '/') + 1, ';');
    assert |SplitParams(p)| == e;
  }

  /** The index of the first `c` at or after index `s`, or `|p|` when there is none. */
  function FindFrom(p: string, s: nat, c: char): (e: nat)
    requires s <= |p|
    ensures s <= e <= |p|
    ensures forall j :: s <= j < e ==> p[j] != c
    ensures e < |p| ==> p[e] == c
    decreases |p| - s
  {
    if s == |p| || p[s] == c then s else FindFrom(p, s + 1, c)
  }

  /** The characters `urlsplit` strips from the front of a URL: the C0
      controls and the space. */
  predicate IsC0OrSpace(c: char) {
    c <= ' '
  }

  /** The characters `urlsplit` deletes wherever they occur. */
  predicate IsUnsafeUrlChar(c: char) {
    c == '\t' || c == '\r' || c == '\n'
  }

  /** `u.lstrip(...)` of the C0 controls and the space: the longest suffix
      of `u` that does not start with one. */
  function LStripC0(u: string): string {
    if |u| > 0 && IsC0OrSpace(u[0]) then LStripC0(u[1..]) else u
  }

  /** `u` with every tab, carriage return and line feed deleted. */
  function DropUnsafe(u: string): string {
    if |u| == 0 then []
    else (if IsUnsafeUrlChar(u[0]) then [] else [u[0]]) + DropUnsafe(u[1..])
  }

  /** The text `urlsplit` parses: leading controls and spaces stripped,
      then tabs and line breaks deleted. */
  function CleanUrl(u: string): string {
    DropUnsafe(LStripC0(u))
  }

  /** `urllib.parse.urlparse(u).path`: after cleaning, the query and
      fragment are cut off, then the scheme, then a `//host` authority up to
      the first slash, and then, for the schemes of `uses_params`, the
      `;params` of the last segment. The path never holds a query or
      fragment mark, nor a character the cleaning deletes. */
  function UrlPath(u: string): (r: string)
    ensures forall j :: 0 <= j < |r| ==> r[j] != '?' && r[j] != '#' && !IsUnsafeUrlChar(r[j])
  {
    var c := CleanUrl(u);
    DropUnsafeIsClean(LStripC0(u));
    var v := c[..FindAny(c, {'?', '#'})];
    var r := LocatorPath(v);
    assert forall j :: 0 <= j < |r| ==> r[j] == v[|v| - |PathOfLocator(v)| + j] == c[|v| - |PathOfLocator(v)| + j];
    r
  }

  /** The `path` of a URL that has no query and no fragment. */
  function LocatorPath(v: string): (r: string)
    ensures var p := PathOfLocator(v); |r| <= |p| && r == p[..|r|]
  {
    var p := PathOfLocator(v);
    if Scheme(v) in ParamSchemes then SplitParams(p) else p
  }

  /** The text after the scheme and authority of a URL that has no query
      and no fragment: a suffix of it. */
  function PathOfLocator(v: string): (r: string)
    ensures |r| <= |v| && r == v[|v| - |r|..]
  {
    var rest := StripScheme(v);
    if |rest| >= 2 && rest[0] == '/' && rest[1] == '/' then
      var authorityAndPath := rest[2..];
      authorityAndPath[FindAny(authorityAndPath, {'/'})..]
    else rest
  }

  /** Stripping leaves a suffix that does not start with a control or a
      space. */
  lemma {:induction false} LStripIsSuffix(u: string)
    ensures var r := LStripC0(u); |r| <= |u| && r == u[|u| - |r|..]
    ensures LStripC0(u) == [] || !IsC0OrSpace(LStripC0(u)[0])
    decreases |u|
  {
    if |u| > 0 && IsC0OrSpace(u[0]) {
      LStripIsSuffix(u[1..]);
    }
  }

  /** Cleaning leaves no tab, carriage return or line feed, and never
      lengthens. */
  lemma {:induction false} DropUnsafeIsClean(u: string)
    ensures |DropUnsafe(u)| <= |u|
    ensures forall j :: 0 <= j < |DropUnsafe(u)| ==> !IsUnsafeUrlChar(DropUnsafe(u)[j])
    decreases |u|
  {
    if |u| > 0 {
      DropUnsafeIsClean(u[1..]);
    }
  }

  /** Cleaning deletes characters piecewise. */
  lemma {:induction false} DropUnsafeAppend(a: string, b: string)
    ensures DropUnsafe(a + b) == DropUnsafe(a) + DropUnsafe(b)
    decreases |a|
  {
    if |a| == 0 {
      assert a + b == b;
    } else {
      assert (a + b)[1..] == a[1..] + b;
      DropUnsafeAppend(a[1..], b);
    }
  }

  /** Cleaning leaves a string without tabs and line breaks as it is. */
  lemma {:induction false} DropUnsafeOfClean(u: string)
    requires forall j :: 0 <= j < |u| ==> !IsUnsafeUrlChar(u[j])
    ensures DropUnsafe(u) == u
    decreases |u|
  {
    if |u| > 0 {
      DropUnsafeOfClean(u[1..]);
      assert [u[0]] + u[1..] == u;
    }
  }

  /** Cleaning brings in no character that was not there. */
  lemma {:induction false} DropUnsafeKeepsAbsent(u: string, x: char)
    requires forall j :: 0 <= j < |u| ==> u[j] != x
    ensures forall j :: 0 <= j < |DropUnsafe(u)| ==> DropUnsafe(u)[j] != x
    decreases |u|
  {
    if |u| > 0 {
      DropUnsafeKeepsAbsent(u[1..], x);
    }
  }

  /** Stripping stops at the first character that is not a control or space. */
  lemma {:induction false} LStripBeforeMark(a: string, b: string)
    requires |b| > 0 && !IsC0OrSpace(b[0])
    ensures LStripC0(a + b) == LStripC0(a) + b
    decreases |a|
  {
    if |a| == 0 {
      assert a + b == b;
    } else if IsC0OrSpace(a[0]) {
      assert (a + b)[1..] == a[1..] + b;
      LStripBeforeMark(a[1..], b);
    }
  }

  /** The last occurrence in `a + b` is in `b` when `b` has one. */
  lemma {:induction false} RFindAppend(a: string, b: string, c: char)
    ensures RFind(a + b, c) == if RFind(b, c) >= 0 then |a| + RFind(b, c) else RFind(a, c)
    decreases |b|
  {
    if |b| > 0 {
      assert (a + b)[..|a + b| - 1] == a + b[..|b| - 1];
      RFindAppend(a, b[..|b| - 1], c);
    } else {
      assert a + b == a;
    }
  }

  /** The first stop in `a + b` is the first stop in `a` when `a` has one. */
  lemma {:induction false} FindAnyAppend(a: string, b: string, stops: set<char>)
    ensures FindAny(a + b, stops) == if FindAny(a, stops) < |a| then FindAny(a, stops) else |a| + FindAny(b, stops)
    decreases |a|
  {
    if |a| > 0 {
      assert (a + b)[1..] == a[1..] + b;
      FindAnyAppend(a[1..], b, stops);
    } else {
      assert a + b == b;
    }
  }

  /** Directory components never change a basename. */
  lemma BasenameUnderDirectory(dir: string, name: string)
    ensures Basename(dir + "/" + name) == Basename(name)
  {
    var a := dir + "/";
    var k := RFind(name, '/');
    RFindAppend(a, name, '/');
    if k < 0 {
      assert RFind(a, '/') == |dir|;
      assert (a + name)[|a|..] == name;
    } else {
      assert (a + name)[|a| + k + 1..] == name[k + 1..];
    }
  }

  /** Cleaning a URL followed by a query or fragment cleans the two parts
      separately. */
  lemma CleanBeforeMark(u: string, m: string)
    requires |m| > 0 && (m[0] == '?' || m[0] == '#')
    ensures CleanUrl(u + m) == CleanUrl(u) + DropUnsafe(m)
  {
    LStripBeforeMark(u, m);
    DropUnsafeAppend(LStripC0(u), m);
  }

  /** Cleaning brings in no query or fragment mark. */
  lemma CleanKeepsNoMarks(u: string)
    requires forall i :: 0 <= i < |u| ==> u[i] != '?' && u[i] != '#'
    ensures FindAny(CleanUrl(u), {'?', '#'}) == |CleanUrl(u)|
  {
    var s := LStripC0(u);
    LStripIsSuffix(u);
    forall j | 0 <= j < |s| ensures s[j] != '?' && s[j] != '#' {
      assert s[j] == u[|u| - |s| + j];
    }
    DropUnsafeKeepsAbsent(s, '?');
    DropUnsafeKeepsAbsent(s, '#');
  }

  /** Before a query or fragment, a URL without marks is cut right where
      it ends. */
  lemma CutBeforeMark(u: string, m: string)
    requires |m| > 0 && (m[0] == '?' || m[0] == '#')
    requires forall i :: 0 <= i < |u| ==> u[i] != '?' && u[i] != '#'
    ensures var w := CleanUrl(u + m); w[..FindAny(w, {'?', '#'})] == CleanUrl(u)
  {
    var c := CleanUrl(u);
    var d := DropUnsafe(m);
    CleanBeforeMark(u, m);
    CleanKeepsNoMarks(u);
    DropUnsafeHead(m);
    FindAnyAppend(c, d, {'?', '#'});
    assert (c + d)[..|c|] == c;
  }

  /** A query string or a fragment never changes the path of a URL. */
  lemma UrlPathIgnoresSuffix(u: string, mark: char, tail: string)
    requires mark == '?' || mark == '#'
    requires forall i :: 0 <= i < |u| ==> u[i] != '?' && u[i] != '#'
    ensures UrlPath(u + [mark] + tail) == UrlPath(u)
  {
    var m := [mark] + tail;
    assert u + [mark] + tail == u + m;
    CutBeforeMark(u, m);
    CleanKeepsNoMarks(u);
    assert CleanUrl(u)[..|CleanUrl(u)|] == CleanUrl(u);
  }

  /** A name without slashes is its own basename. */
  lemma BasenameOfName(name: string)
    requires NoSlash(name)
    ensures Basename(name) == name
  {
    assert RFind(name, '/') == -1;
  }

  /** `os.path.split(p)[0]` depends only on the text up to the last slash. */
  lemma HeadByPrefix(a: string, b: string)
    requires RFind(a, '/') == RFind(b, '/')
    requires a[..RFind(a, '/') + 1] == b[..RFind(b, '/') + 1]
    ensures Head(a) == Head(b)
  {
  }

  /** Cutting a string after its last `c` keeps that `c` the last one. */
  lemma RFindPrefix(p: string, n: int, c: char)
    requires RFind(p, c) < n <= |p|
    ensures RFind(p[..n], c) == RFind(p, c)
  {
    var k := RFind(p, c);
    var q := p[..n];
    if k >= 0 {
      assert q[k] == c;
    }
    if RFind(q, c) >= 0 {
      assert p[RFind(q, c)] == c;
    }
  }

  /** The root `os.path.splitext` returns keeps everything up to the last
      slash. */
  lemma SplitextRootPrefix(p: string)
    ensures var root := Splitext(p).0; var k := RFind(p, '/');
      RFind(root, '/') == k && k + 1 <= |root| && root[..k + 1] == p[..k + 1]
  {
    var root := Splitext(p).0;
    if root != p {
      RFindPrefix(p, |root|, '/');
    }
  }

  /** Appending slash-free text keeps the head of a path's directory part. */
  lemma HeadWithSuffix(root: string, p: string, suffix: string)
    requires NoSlash(suffix)
    requires RFind(root, '/') == RFind(p, '/') && RFind(p, '/') + 1 <= |root|
    requires root[..RFind(p, '/') + 1] == p[..RFind(p, '/') + 1]
    ensures Head(root + suffix) == Head(p)
  {
    var k := RFind(p, '/');
    var r := root + suffix;
    assert RFind(r, '/') == k by {
      RFindAppend(root, suffix, '/');
    }
    assert r[..k + 1] == root[..k + 1];
    HeadByPrefix(r, p);
  }

  /** A name under the root directory is its own basename. */
  lemma BasenameUnderRoot(name: string)
    requires NoSlash(name)
    ensures Basename("/" + name) == name
  {
    assert RFind(name, '/') == -1;
    RFindAppend("/", name, '/');
    assert ("/" + name)[1..] == name;
  }

  /** Cleaning keeps a first character it does not delete. */
  lemma DropUnsafeHead(t: string)
    requires |t| > 0 && !IsUnsafeUrlChar(t[0])
    ensures DropUnsafe(t) == [t[0]] + DropUnsafe(t[1..])
  {
  }

  /** Cleaning leaves a clean locator alone and cleans only what follows it. */
  lemma CleanOfLocator(loc: string, tail: string)
    requires loc == "" || !IsC0OrSpace(loc[0])
    requires forall j :: 0 <= j < |loc| ==> !IsUnsafeUrlChar(loc[j])
    requires tail == "" || tail[0] == '?' || tail[0] == '#'
    ensures CleanUrl(loc + tail) == loc + DropUnsafe(tail)
  {
    var u := loc + tail;
    assert LStripC0(u) == u by {
      if |loc| > 0 {
        assert u[0] == loc[0];
      } else {
        assert u == tail;
      }
    }
    DropUnsafeAppend(loc, tail);
    DropUnsafeOfClean(loc);
  }

  /** Cutting at the query or fragment mark leaves the locator before it,
      when nothing needs cleaning. */
  lemma UrlPathOfLocator(loc: string, tail: string)
    requires loc == "" || !IsC0OrSpace(loc[0])
    requires forall j :: 0 <= j < |loc| ==> loc[j] != '?' && loc[j] != '#' && !IsUnsafeUrlChar(loc[j])
    requires tail == "" || tail[0] == '?' || tail[0] == '#'
    ensures UrlPath(loc + tail) == LocatorPath(loc)
  {
    var stops := {'?', '#'};
    var t := DropUnsafe(tail);
    var c := loc + t;
    assert CleanUrl(loc + tail) == c by {
      CleanOfLocator(loc, tail);
    }
    assert c[..FindAny(c, stops)] == loc by {
      assert t == "" || t[0] in stops by {
        if |tail| > 0 {
          DropUnsafeHead(tail);
        }
      }
      assert FindAny(loc, stops) == |loc|;
      FindAnyAppend(loc, t, stops);
    }
  }

  /** A well-formed scheme followed by a colon is dropped, and reported
      lowered. */
  lemma {:induction false} StripSchemeOf(scheme: string, rest: string, v: string)
    requires |scheme| > 0 && IsAsciiLetter(scheme[0])
    requires forall j :: 0 <= j < |scheme| ==> IsSchemeChar(scheme[j])
    requires v == scheme + ":" + rest
    ensures StripScheme(v) == rest
    ensures Scheme(v) == Lower(scheme)
  {
    SchemeCharsOf(scheme);
    assert v == scheme + (":" + rest);
    assert FindAny(scheme, {':'}) == |scheme| by {
      forall j | 0 <= j < |scheme| ensures scheme[j] != ':' {
        assert IsSchemeChar(scheme[j]);
      }
    }
    FindAnyAppend(scheme, ":" + rest, {':'});
    assert FindAny(v, {':'}) == |scheme|;
    assert forall j :: 0 <= j < |scheme| ==> v[j] == scheme[j];
    assert v[..|scheme|] == scheme;
    assert v[|scheme| + 1..] == rest;
  }

  /** After `//`, the authority runs up to the first slash. */
  lemma {:induction false} AuthorityDropped(host: string, path: string)
    requires forall j :: 0 <= j < |host| ==> host[j] != '/'
    requires path == "" || path[0] == '/'
    ensures var ap := host + path; ap[FindAny(ap, {'/'})..] == path
  {
    assert FindAny(host, {'/'}) == |host|;
    FindAnyAppend(host, path, {'/'});
    assert (host + path)[|host|..] == path;
  }

  /** A locator built from a scheme and a clean rest is clean. */
  lemma NoMarksInLocator(scheme: string, rest: string)
    requires forall j :: 0 <= j < |scheme| ==> IsSchemeChar(scheme[j])
    requires forall j :: 0 <= j < |rest| ==> rest[j] != '?' && rest[j] != '#' && !IsUnsafeUrlChar(rest[j])
    ensures var loc := scheme + ":" + rest;
      forall j :: 0 <= j < |loc| ==> loc[j] != '?' && loc[j] != '#' && !IsUnsafeUrlChar(loc[j])
  {
    var loc := scheme + ":" + rest;
    forall j | 0 <= j < |loc| ensures loc[j] != '?' && loc[j] != '#' && !IsUnsafeUrlChar(loc[j]) {
      if j < |scheme| {
        assert loc[j] == scheme[j] && IsSchemeChar(scheme[j]);
      } else if j > |scheme| {
        assert loc[j] == rest[j - |scheme| - 1];
      }
    }
  }

  /** The path of `scheme://host/path` is `/path`, less the `;params` of
      its last segment when the scheme takes them. */
  lemma PathAfterHost(scheme: string, host: string, path: string)
    requires |scheme| > 0 && IsAsciiLetter(scheme[0])
    requires forall j :: 0 <= j < |scheme| ==> IsSchemeChar(scheme[j])
    requires forall j :: 0 <= j < |host| ==> host[j] != '/'
    requires path == "" || path[0] == '/'
    ensures LocatorPath(scheme + ":" + "//" + host + path)
         == if Lower(scheme) in ParamSchemes then SplitParams(path) else path
  {
    var v := scheme + ":" + "//" + host + path;
    LocatorAfterHost(scheme, host, path, v);
    assert PathOfLocator(v) == path && Scheme(v) == Lower(scheme);
  }

  /** Before any params are split off, the text after `scheme://host` is
      the path, and the scheme is reported lowered. */
  lemma {:induction false} LocatorAfterHost(scheme: string, host: string, path: string, v: string)
    requires |scheme| > 0 && IsAsciiLetter(scheme[0])
    requires forall j :: 0 <= j < |scheme| ==> IsSchemeChar(scheme[j])
    requires forall j :: 0 <= j < |host| ==> host[j] != '/'
    requires path == "" || path[0] == '/'
    requires v == scheme + ":" + "//" + host + path
    ensures PathOfLocator(v) == path && Scheme(v) == Lower(scheme)
  {
    var rest := "//" + host + path;
    assert v == scheme + ":" + rest;
    StripSchemeOf(scheme, rest, v);
    assert rest[0] == '/' && rest[1] == '/';
    assert rest[2..] == host + path;
    AuthorityDropped(host, path);
  }

  /** For `scheme://host/path?query`, the path is the text after the host, up
      to the query or fragment, when nothing needs cleaning; for a scheme
      that takes `;params`, less those of the last segment. A host without
      square brackets is one `urlsplit` does not check as an IPv6 address. */
  lemma {:induction false} UrlPathAfterHost(scheme: string, host: string, path: string, tail: string)
    requires |scheme| > 0 && IsAsciiLetter(scheme[0])
    requires forall j :: 0 <= j < |scheme| ==> IsSchemeChar(scheme[j])
    requires forall j :: 0 <= j < |host| ==>
      host[j] != '/' && host[j] != '?' && host[j] != '#' && !IsUnsafeUrlChar(host[j]) && host[j] != '[' && host[j] != ']'
    requires path == "" || path[0] == '/'
    requires forall j :: 0 <= j < |path| ==> path[j] != '?' && path[j] != '#' && !IsUnsafeUrlChar(path[j])
    requires tail == "" || tail[0] == '?' || tail[0] == '#'
    ensures UrlPath(scheme + "://" + host + path + tail)
         == if Lower(scheme) in ParamSchemes then SplitParams(path) else path
  {
    var rest := "//" + host + path;
    var loc := scheme + ":" + rest;
    forall j | 0 <= j < |rest| ensures rest[j] != '?' && rest[j] != '#' && !IsUnsafeUrlChar(rest[j]) {
      if 2 <= j < 2 + |host| {
        assert rest[j] == host[j - 2];
      } else if j >= 2 + |host| {
        assert rest[j] == path[j - 2 - |host|];
      }
    }
    NoMarksInLocator(scheme, rest);
    assert scheme + "://" + host + path + tail == loc + tail;
    assert loc == scheme + ":" + "//" + host + path;
    UrlPathOfLocator(loc, tail);
    PathAfterHost(scheme, host, path);
  }

  /** For `scheme://host/name;params?query` with a scheme that takes
      params, the path is `/name`. */
  lemma UrlPathDropsParams(scheme: string, host: string, path: string, name: string, params: string, tail: string)
    requires path == "/" + name + ";" + params
    requires |scheme| > 0 && IsAsciiLetter(scheme[0]) && Lower(scheme) in ParamSchemes
    requires forall j :: 0 <= j < |scheme| ==> IsSchemeChar(scheme[j])
    requires forall j :: 0 <= j < |host| ==>
      host[j] != '/' && host[j] != '?' && host[j] != '#' && !IsUnsafeUrlChar(host[j]) && host[j] != '[' && host[j] != ']'
    requires forall j :: 0 <= j < |name| ==>
      name[j] != '/' && name[j] != ';' && name[j] != '?' && name[j] != '#' && !IsUnsafeUrlChar(name[j])
    requires forall j :: 0 <= j < |params| ==>
      params[j] != '/' && params[j] != '?' && params[j] != '#' && !IsUnsafeUrlChar(params[j])
    requires tail == "" || tail[0] == '?' || tail[0] == '#'
    ensures UrlPath(scheme + "://" + host + path + tail) == "/" + name
  {
    assert SplitParams(path) == "/" + name by {
      SplitParamsOfSegment("/", name, params);
    }
    assert forall j :: 0 <= j < |path| ==> path[j] != '?' && path[j] != '#' && !IsUnsafeUrlChar(path[j]) by {
      ParamsPathClean(name, params);
    }
    UrlPathAfterHost(scheme, host, path, tail);
  }

  /** `/name;params` holds no mark and nothing the cleaning deletes when
      neither part does. */
  lemma ParamsPathClean(name: string, params: string)
    requires forall j :: 0 <= j < |name| ==> name[j] != '?' && name[j] != '#' && !IsUnsafeUrlChar(name[j])
    requires forall j :: 0 <= j < |params| ==> params[j] != '?' && params[j] != '#' && !IsUnsafeUrlChar(params[j])
    ensures var path := "/" + name + ";" + params;
      forall j :: 0 <= j < |path| ==> path[j] != '?' && path[j] != '#' && !IsUnsafeUrlChar(path[j])
  {
    var path := "/" + name + ";" + params;
    forall j | 0 <= j < |path| ensures path[j] != '?' && path[j] != '#' && !IsUnsafeUrlChar(path[j]) {
      if 0 < j <= |name| {
        assert path[j] == name[j - 1];
      } else if j > |name| + 1 {
        assert path[j] == params[j - |name| - 2];
      }
    }
  }

  /** For `scheme://host/path?query` with no `;` in the path, the path is
      the text after the host, whatever the scheme. */
  lemma UrlPathAfterHostPlain(scheme: string, host: string, path: string, tail: string)
    requires |scheme| > 0 && IsAsciiLetter(scheme[0])
    requires forall j :: 0 <= j < |scheme| ==> IsSchemeChar(scheme[j])
    requires forall j :: 0 <= j < |host| ==>
      host[j] != '/' && host[j] != '?' && host[j] != '#' && !IsUnsafeUrlChar(host[j]) && host[j] != '[' && host[j] != ']'
    requires path == "" || path[0] == '/'
    requires forall j :: 0 <= j < |path| ==> path[j] != '?' && path[j] != '#' && !IsUnsafeUrlChar(path[j]) && path[j] != ';'
    requires tail == "" || tail[0] == '?' || tail[0] == '#'
    ensures UrlPath(scheme + "://" + host + path + tail) == path
  {
    UrlPathAfterHost(scheme, host, path, tail);
    SplitParamsOfPlain(path);
  }

  /** A path without `;` has no params to split off. */
  lemma SplitParamsOfPlain(p: string)
    requires forall j :: 0 <= j < |p| ==> p[j] != ';'
    ensures SplitParams(p) == p
  {
  }

  /** The params of `dir/name;params` are cut off, leaving `dir/name`, when
      `name` has neither slash nor `;` and `params` has no slash. */
  lemma SplitParamsOfSegment(dir: string, name: string, params: string)
    requires |dir| > 0 && dir[|dir| - 1] == '/'
    requires forall j :: 0 <= j < |name| ==> name[j] != '/' && name[j] != ';'
    requires NoSlash(params)
    ensures SplitParams(dir + name + ";" + params) == dir + name
  {
    var seg := name + ";" + params;
    var p := dir + name + ";" + params;
    assert p == dir + seg;
    var s := |dir| + |name|;
    SegmentHasNoSlash(name, params);
    RFindAppend(dir, seg, '/');
    assert RFind(p, '/') == |dir| - 1;
    var r := SplitParams(p);
    SplitParamsCut(p);
    assert p[s] == ';';
    assert |r| == s;
    assert r == p[..s] == dir + name;
  }

  /** `name;params` has no slash when neither part has one. */
  lemma SegmentHasNoSlash(name: string, params: string)
    requires forall j :: 0 <= j < |name| ==> name[j] != '/'
    requires NoSlash(params)
    ensures NoSlash(name + ";" + params) && RFind(name + ";" + params, '/') == -1
  {
    var seg := name + ";" + params;
    forall j | 0 <= j < |seg| ensures seg[j] != '/' {
      if j < |name| {
        assert seg[j] == name[j];
      } else if j > |name| {
        assert seg[j] == params[j - |name| - 1];
      }
    }
  }

  /** In a name without slashes, the extension starts at the last dot when
      something other than dots precedes it. */
  lemma ExtOfName(name: string, k: nat)
    requires NoSlash(name)
    requires k < |name| && name[k] == '.' && HasNonDot(name[..k])
    requires forall j :: k < j < |name| ==> name[j] != '.'
    ensures Ext(name) == name[k..]
  {
    assert RFind(name, '/') == -1;
    assert RFind(name, '.') == k;
  }

  /** A name that is a dot followed by a dot-free word has no extension. */
  lemma DotNameHasNoExt(word: string)
    requires forall j :: 0 <= j < |word| ==> word[j] != '.' && word[j] != '/'
    ensures Basename("." + word) == "." + word
    ensures Ext("." + word) == ""
  {
    var name := "." + word;
    forall j | 0 <= j < |name| ensures name[j] != '/' {
      if j > 0 {
        assert name[j] == word[j - 1];
      }
    }
    BasenameOfName(name);
    assert RFind(name, '/') == -1;
    assert name[0] == '.';
    assert forall j :: 0 < j < |name| ==> name[j] == word[j - 1];
    assert RFind(name, '.') == 0;
  }
}

=== FILE: pystr.dfy ===
/** The few Python string operations the image library relies on:
    `str.rfind` and `str.find` for one character, ASCII `str.lower`, and
    `str(n)` for a non-negative integer together with its inverse.
 */
module PyStr {

  predicate IsDigit(c: char) {
    '0' <= c <= '9'
  }

  predicate AllDigits(s: string) {
    forall i :: 0 <= i < |s| ==> IsDigit(s[i])
  }

  /** `s.rfind(c)`: the index of the last `c` in `s`, or -1 when there is none. */
  function RFind(s: string, c: char): (r: int)
    ensures -1 <= r < |s|
    ensures r >= 0 ==> s[r] == c
    ensures forall j :: r < j < |s| ==> s[j] != c
  {
    if |s| == 0 then -1
    else if s[|s| - 1] == c then |s| - 1
    else RFind(s[..|s| - 1], c)
  }

  /** The index of the first character of `s` that is in `stops`, or `|s|` when there is none. */
  function FindAny(s: string, stops: set<char>): (r: nat)
    ensures r <= |s|
    ensures r < |s| ==> s[r] in stops
    ensures forall j :: 0 <= j < r ==> s[j] !in stops
  {
    if |s| == 0 then 0
    else if s[0] in stops then 0
    else 1 + FindAny(s[1..], stops)
  }

  /** True when some character of `s` is not a dot. */
  predicate HasNonDot(s: string) {
    exists i :: 0 <= i < |s| && s[i] != '.'
  }

  /** `c.lower()` for ASCII; every other character is left as it is. */
  function LowerChar(c: char): char {
    if 'A' <= c <= 'Z' then (c as int + 32) as char else c
  }

  /** `s.lower()`, character by character. */
  function Lower(s: string): string {
    seq(|s|, i requires 0 <= i < |s| => LowerChar(s[i]))
  }

  function DigitChar(d: nat): char
    requires d < 10
  {
    ('0' as int + d) as char
  }

  function DigitValue(c: char): nat
    requires IsDigit(c)
  {
    c as int - '0' as int
  }

  /** `str(n)` for a non-negative integer: decimal digits, with no leading zero. */
  function Decimal(n: nat): (r: string)
    ensures |r| > 0 && AllDigits(r)
    ensures n > 0 ==> r[0] != '0'
  {
    if n < 10 then [DigitChar(n)] else Decimal(n / 10) + [DigitChar(n % 10)]
  }

  /** `int(s)` for a string of decimal digits (the empty string reads as 0). */
  function ParseNat(s: string): nat
    requires AllDigits(s)
  {
    if |s| == 0 then 0 else 10 * ParseNat(s[..|s| - 1]) + DigitValue(s[|s| - 1])
  }

  /** Reading back the digits `str(n)` wrote gives `n`. */
  lemma {:induction false} ParseDecimal(n: nat)
    ensures ParseNat(Decimal(n)) == n
  {
    if n >= 10 {
      var d := Decimal(n / 10) + [DigitChar(n % 10)];
      assert d[..|d| - 1] == Decimal(n / 10);
      ParseDecimal(n / 10);
    }
  }

  /** `str` is injective on non-negative integers. */
  lemma DecimalInjective(a: nat, b: nat)
    requires Decimal(a) == Decimal(b)
    ensures a == b
  {
    ParseDecimal(a);
    ParseDecimal(b);
  }

  /** The longest prefix of `s` made of decimal digits. */
  function TakeDigits(s: string): (r: string)
    ensures AllDigits(r)
    ensures |r| <= |s| && r == s[..|r|]
    ensures |r| < |s| ==> !IsDigit(s[|r|])
  {
    if |s| == 0 || !IsDigit(s[0]) then "" else [s[0]] + TakeDigits(s[1..])
  }

  /** The digits of `d` are recovered from `d + t` when `t` does not start with a digit. */
  lemma {:induction false} TakeDigitsPrefix(d: string, t: string)
    requires AllDigits(d)
    requires |t| == 0 || !IsDigit(t[0])
    ensures TakeDigits(d + t) == d
  {
    if |d| > 0 {
      assert (d + t)[1..] == d[1..] + t;
      TakeDigitsPrefix(d[1..], t);
    }
  }
}

=== FILE: results.dfy ===
/** Values returned by the modelled Python functions.

    A Python function here either returns a value or raises an exception that
    propagates to its caller. `Outcome` keeps the two apart; the state that
    accompanies a `Raised` outcome is the state as it stood when the exception
    was raised (work committed before that point is not rolled back).
 */
module Results {

  /** Python's `None` versus a present value. */
  datatype Option<+T> = None | Some(value: T)

  /** The exceptions the modelled code can let escape. */
  datatype Failure =
    | HttpError                  // urllib.request.urlopen raised (HTTP error status, unreachable host)
    | WriteError                 // open/write of the fetched bytes failed
    | FileNotFound(path: string) // os.remove on a path that does not exist
    | NoneAttribute              // an attribute was set on the None that `.first()` returned

  /** A returned value, or an exception that escaped. */
  datatype Outcome<+T> = Returned(value: T) | Raised(failure: Failure)
}
